=== FILE: README.md ===
# Taxi run-sheet extractor: the trip-pairing engine in Dafny

`app.py` reads a taxi company's PDF run sheets and turns the rows of each
page's main table into trip records, one per passenger ride. A ride shows up on
the sheet as a pickup row (`P`) followed, possibly much later, by a dropoff row
(`D`). The program keeps the pickups it has seen in a queue. When a dropoff
arrives it claims a pickup:

- first the queue entry whose customer ID or name matches;
- otherwise the oldest entry.

The pair becomes a trip unless the dropoff has no address, or it lies more than
five minutes before the pickup. Pickups still queued after the last page are
written out with blank dropoff fields.

This project models that engine as pure functions over immutable data and
proves what it promises. It covers the cell and comment text clean-up, the
metadata taken from the page text, the row parser, the dropoff matching, the
page loop and the final flush.

Modules, in dependency order:

| module | file | models |
|---|---|---|
| `Wrappers` | wrappers.dfy | `Option` and `Result` |
| `Strings` | strings.dfy | Python's `strip`/`lstrip`/`rstrip`, `replace`, `split`/`join`, `str(n)`, and the leftmost scan that `re.search` performs |
| `Patterns` | patterns.dfy | a small greedy, backtracking matcher for the fixed regular expressions of `clean_comment_text`, with `re.IGNORECASE`, plus `re.sub` |
| `Normalize` | normalize.dfy | the two mapping tables, `clean_comment_text`, `parse_address_with_city` |
| `Metadata` | metadata.dfy | `extract_date_and_run` |
| `Rows` | rows.dfy | row cleaning, P/D detection, time extraction, `strptime('%H:%M')`, `parse_name_id_comments` |
| `Pairing` | pairing.dfy | `process_table_row`: queue, last-dropoff record, matching, the five-minute check, trip records |
| `Driver` | driver.dfy | `extract_taxi_data` without the PDF library: table choice, row filter, per-page run and mileage, final flush, CSV name |
| `Scenarios` | scenarios.dfy | worked examples of the behaviours above |

Effects are replaced by data:

- The PDF library is replaced by a `Page` value: the page text and the list of
  tables, each a sequence of rows of optional cells.
- `datetime.now()` is the `today` parameter, already rendered as `MM/DD/YYYY`.
- The mutable lists and the `last_dropoff_data` dictionary are the `Engine`
  value that each step returns.
- What `process_table_row` did is recorded as an `Outcome`:
  - `Refused` when the row is rejected;
  - `Enqueued` for a pickup;
  - for a dropoff: `Emitted`, `Deferred`, `Discarded` or `Unmatched`.

The log of outcomes is what the conservation lemmas count.

Some behaviours of the code are easy to miss. The model follows the code in
each of them:

- `clean_comment_text` is not idempotent.
  - `clean_comment_text("/ 12 x")` returns `12 x`: the number tag is tried
    before the final strip of slashes.
  - Cleaning `12 x` again gives `Nb: 12 x`.
- Matching tests the ID and the name together on each queue entry in turn
  (app.py:204-209). An earlier entry with the dropoff's name therefore beats a
  later entry with its ID (`Scenarios.MatchIsPerEntry`).
- `(\d{5,6})` captures at most six digits. A seven-digit number such as the
  sample `1905806` (app.py:442) yields its first six digits as the ID
  (`Scenarios.SevenDigitId`).
- A dropoff row always updates the stored dropoff time and run, even when it
  finds no pickup to claim.

## Model

| member | source | states |
|---|---|---|
| Strings.JoinSplit | app.py:76-78 | joining the pieces of a split with `t` is the same as replacing every separator by `t`; this is how the later address lines become one line |
| Strings.SplitRoundTrip | app.py:76 | splitting on a separator and joining with it restores the string |
| Strings.SplitAtFirst | app.py:76-77 | the first piece of a split is the text before the first separator; the rest are the pieces of what follows |
| Strings.SplitNone | app.py:76-77 | a text without the separator splits into itself alone |
| Strings.NatToString | app.py:286 | `str(n)`: a non-empty run of decimal digits whose value is `n`, with no leading zero unless `n` is 0 |
| Strings.ReplaceAbsent | app.py:44 | `replace` of a character the text does not contain returns the text unchanged |
| Strings.ReplaceOnce | app.py:44 | `replace` of a character that occurs once substitutes the replacement at that place and keeps both sides |
| Strings.ReplaceChar | app.py:278 | `replace` of one character by one character keeps the length and maps each position: the old character becomes the new one, every other character stays |
| Patterns.SubFromNoMatch | app.py:47-51 | from any position after which the pattern matches nowhere, the `re.sub` scan copies the rest of the text unchanged |
| Patterns.SubNoMatch | app.py:47-51 | `re.sub` with a pattern that matches nowhere in the text returns the text unchanged |
| Normalize.TablesWellFormed | app.py:23-37 | every key of the city and comment mappings is non-empty, and no replacement value contains a line break |
| Normalize.ApplyTable | app.py:60-61 | expanding a mapping only produces characters of the input or of the replacement values |
| Normalize.ReplaceAcrossBreak | app.py:74 | `replace` with a break-free pattern never matches across a line break: replacing in `a + "\n" + b` is replacing in `a` and in `b` |
| Normalize.ApplyTableAcrossBreak | app.py:73-74 | with break-free keys, expanding the city mapping works line by line |
| Normalize.Unbreak | app.py:44 | no `\n` or `\r` is left; a text without line breaks is only stripped |
| Normalize.UnbreakJoins | app.py:44 | two break-free lines joined by `\n`, or by `\r`, become one line joined by ` / `, then stripped |
| Normalize.StripHeaders | app.py:47-51 | removing the boilerplate headers never introduces a line break |
| Normalize.NbPrefix | app.py:54-57 | the text is tagged exactly when its stripped form starts with digits followed by a blank; the result is then `Nb: `, the digits, one space, and the stripped text from its first non-blank after the digits; otherwise the text comes back unchanged; no line break is introduced |
| Normalize.Tag | app.py:56-57 | rewriting the leading number of a stripped text gives `Nb: `, the number, one space and the rest from the first non-blank after it |
| Normalize.TaggedNumber | app.py:54-57 | something non-blank follows the leading number and its blanks, so the final strip of the tagging step leaves the tagged text whole, starting with `Nb: ` |
| Normalize.ExpandAbbreviations | app.py:60-61 | expanding abbreviations never introduces a line break, because no replacement value holds one |
| Normalize.CollapseSeparators | app.py:64-66 | collapsing separators never introduces a line break |
| Normalize.TrimEnds | app.py:68 | the result is a contiguous piece of the text that neither starts nor ends with whitespace; a text already free of blanks and slashes at both ends is returned as it is |
| Normalize.TrimEndsPiece | app.py:68 | whitespace, slash and whitespace trimming in turn keeps a contiguous piece of the text |
| Normalize.TrimEndsKeeps | app.py:68 | the three trims leave alone a text with no blank or slash at either end |
| Normalize.StripUnchanged | app.py:68 | a text whose ends are not whitespace is its own `strip()` |
| Normalize.CleanCommentText | app.py:41-68 | an empty comment stays empty; every cleaned comment is one line with non-blank ends |
| Normalize.ParseAddressWithCity | app.py:70-80 | an empty address gives two empty parts; the base address is one line with non-blank ends |
| Normalize.AddressLines | app.py:73-80 | for an address on several lines, the base is the city-expanded first line, stripped; the notes are the later lines, expanded, joined by spaces and stripped |
| Normalize.AddressSingleLine | app.py:76-79 | an address on one line is all base, with empty notes |
| Metadata.FindDate | app.py:86 | the first `DDDD/DD/DD` in the text, with none earlier; none at all when absent |
| Metadata.DateOf | app.py:83-89 | with no date in the text the result is `today`; otherwise it is `MM/DD/YYYY`, with `/` at positions 2 and 5, and moving the year back to the front gives exactly the matched text |
| Metadata.FindRun | app.py:91 | the leftmost `Run … TTM####` match, with none earlier; none when absent |
| Metadata.RunIdAt | app.py:91-93 | the captured run is `TTM` plus four digits taken from the text at the match, never `Unknown` |
| Metadata.RunNumberOf | app.py:84-93 | the result is `Unknown` exactly when no run matches; otherwise it is the run captured at the leftmost match |
| Metadata.RunNumberUnknown | app.py:84-93 | the run number is `Unknown` exactly when the text names no run |
| Metadata.MileageNumber | app.py:95 | the captured number starts after the blanks that follow `Mileage:`, at the first non-blank, and ends where the run of digits and dots ends |
| Metadata.FindMileage | app.py:95 | the leftmost `Mileage: … km` match, with none earlier; none when absent |
| Metadata.MileageText | app.py:95-96 | the captured number is non-empty, made of digits and dots, stands in the text after only blanks following `Mileage:`, and is not followed by a digit or dot |
| Metadata.MileageShape | app.py:96 | a captured number followed by ` km` is a well-formed mileage |
| Metadata.MileageOf | app.py:95-96 | always a well-formed mileage; `0 km` when nothing matches, otherwise the leftmost match's number plus ` km` |
| Metadata.ExtractDateAndRun | app.py:82-98 | the run is the run of the leftmost match and `Unknown` exactly when the text names none, else a `TTM####` id; the mileage is the leftmost match's number plus ` km`, `0 km` when the text states none; the date is the first `YYYY/MM/DD` as `MM/DD/YYYY`, else `today` |
| Rows.CleanCell | app.py:129 | an absent cell becomes empty; a cleaned cell has no zero-width space and no surrounding whitespace, and holds only characters of the cell; a cell already trimmed and free of zero-width spaces is returned unchanged |
| Rows.CleanRow | app.py:129 | the row keeps its length and each cell is cleaned in place |
| Rows.Classify | app.py:131-145 | a pickup exactly when one of cells 4–6 is exactly `P`; a dropoff exactly when none is and cell 4 contains `D` |
| Rows.FindTimeAt | app.py:157-164 | the leftmost position where `\d{1,2}:\d{2}` matches, with none earlier; none when absent |
| Rows.TimeIn | app.py:164 | the captured time is `H:MM` or `HH:MM` and is the text at the leftmost match |
| Rows.ParseClock | app.py:224-225 | for a clock-shaped text, `strptime` succeeds exactly when the hour is at most 23 and the minute at most 59; the value is then the seconds after midnight |
| Rows.FindId | app.py:105 | the leftmost start of five digits, with none earlier; none when absent |
| Rows.IdentityText | app.py:101 | the identity text is cell 5's lines joined by ` / ` and stripped, with no `\n` left; a one-line, trimmed cell comes through as it is |
| Rows.IdentityUntouched | app.py:101 | replacing each `\n` by ` / ` then stripping is joining the cell's lines by ` / ` then stripping, and it leaves a one-line trimmed cell alone |
| Rows.CommentCells | app.py:102 | at most one entry per cell |
| Rows.CommentOf | app.py:102 | a cell contributes one entry exactly when it is not blank; that entry is the cell's lines joined by ` / ` and has no line break |
| Rows.CommentCellsAppend | app.py:102 | the comment cells are kept one by one and in order: the result for a concatenation is the concatenation of the results, and a single cell gives what `CommentOf` gives |
| Rows.IdOf | app.py:104-107 | the ID is empty exactly when no five-digit run occurs; otherwise it is the leftmost run: six digits when a sixth digit follows, else five |
| Rows.NameOf | app.py:109-113 | the name is trimmed and does not end in `*`, `/` or a blank; it stands in the cell after nothing but blanks, and between its end and the ID (or the end of the cell) there are only `*`, `/` and blanks |
| Rows.ParseNameIdComments | app.py:100-121 | the ID is the leftmost five- or six-digit run; the name is placed in the cell as `NameOf` states; the comments are one line |
| Rows.IdSplitsAtMatch | app.py:105-111 | no occurrence of the ID precedes the leftmost match, so `split(cust_id)[0]` is the text before the match |
| Rows.NameLocated | app.py:111-113 | stripping the text before the ID and dropping the trailing `*`, `/` and blanks leave the name after only blanks, with only `*`, `/` and blanks up to the ID |
| Strings.StripParts | app.py:111 | `strip()` returns a contiguous piece of its input with only blanks before and after it |
| Strings.TrimParts | app.py:68 | `strip(chars)` returns a contiguous piece of its input with only those characters before and after it |
| Strings.ReplaceNowhere | app.py:117 | `replace` with a pattern that occurs nowhere returns the text unchanged |
| Rows.NameEndsClean | app.py:113 | after the trailing run is dropped and the text stripped, the name does not end in `*`, `/` or a blank |
| Rows.NotesAfter | app.py:115-117 | the notes are trimmed, empty when there is no name or nothing after it, and made of characters from the cell after the name; when there is no ID, or the ID does not occur after the name, they are exactly that rest stripped |
| Rows.ParseRow | app.py:123-164 | refused with fewer than six cells, with no P/D indicator, or with no time in the departure and arrival cells, and only then; otherwise the kind is the classification, the time is the departure time if there is one else the arrival time, and the address, name, ID and comments come from their cells |
| Pairing.TidyUnchanged | app.py:219-220 | `.strip().lstrip('/')` leaves a text alone when it starts with neither a blank nor a slash and ends non-blank |
| Pairing.TidyKeepsHead | app.py:171 | `.strip().lstrip('/')` keeps a plain head when something non-blank follows it |
| Pairing.PickupComment | app.py:171 | a pickup comment always starts with `PU Com: `; with address notes ending non-blank it is `PU Com: <comments> / Initial Address Notes: <notes>` exactly, and with no notes it ends at `Notes:` |
| Pairing.PickupKeepsTag | app.py:171 | the pickup tag survives `.strip().lstrip('/')` |
| Pairing.PickupEnds | app.py:171 | `.strip().lstrip('/')` keeps the assembled pickup text when the notes end non-blank, and drops only the blank after the label when there are none |
| Pairing.PickupNoNotes | app.py:171 | without address notes the pickup text loses only its final blank |
| Pairing.TidyDropsBlank | app.py:171 | a single trailing blank after plain text is all that `.strip().lstrip('/')` removes |
| Pairing.DropoffComment | app.py:219 | a dropoff comment always starts with `DO Com:` and ends non-blank; with comments ending non-blank it is `DO Com: <comments>` exactly, and with none it is `DO Com:` alone |
| Pairing.TripComment | app.py:220 | for a tagged pickup comment, the trip comment is exactly the pickup comment, ` / `, and the dropoff comment |
| Pairing.JoinedUntouched | app.py:220 | the final `.strip().lstrip('/')` of a tagged pickup comment joined to a dropoff comment changes nothing |
| Pairing.MatchIndex | app.py:201-214 | none for an empty queue; the first entry that matches by ID or name when one does; otherwise the head |
| Pairing.RemoveAt | app.py:205-213 | removing entry `k` keeps the entries before it, moves the later ones up by one, and removes exactly that one entry from the multiset |
| Pairing.NewPickup | app.py:167-181 | the queued pickup carries the page's run and the row's time, name and ID; its address is the first line of the parsed address; its comment is the pickup comment built from the row's comments and the address notes of the parsed address, tagged `PU Com: ` |
| Pairing.DropoffAddress | app.py:191-195 | an empty address cell inherits the stored address; otherwise the address is the base part of the parsed cell, one line with non-blank ends |
| Pairing.TooEarlyClock | app.py:222-231 | for valid clock times the pair is refused exactly when the dropoff minute of the day is more than five minutes before the pickup's; a time that does not parse never refuses the pair |
| Pairing.MakeTrip | app.py:233-244 | the trip takes its pickup fields from the claimed pickup, its dropoff address and time from the dropoff, and its date and mileage from the page; for a tagged pickup comment, the comment is pickup ` / ` dropoff |
| Pairing.OnDropoff | app.py:185-249 | the stored time and run are always updated, and so is the address when the row has one; nothing is claimed exactly when the queue is empty; otherwise the dropoff claims the entry `MatchIndex` picks |
| Pairing.Claim | app.py:215-247 | the claimed pickup is discarded exactly when there is no address, and deferred to the queue head exactly when it is too early; otherwise the queue loses it and one trip is appended |
| Pairing.EmptyAddressInherits | app.py:191-197 | a dropoff row without an address keeps the stored address and gives it to the trip it emits |
| Pairing.Apply | app.py:123-249 | a refused row changes nothing; a pickup row appends one new entry to the queue; a dropoff row is handled as `OnDropoff` describes |
| Pairing.Step | app.py:123-249 | a row is refused exactly when it is unusable, and then changes nothing; an accepted pickup row keeps the queue and appends `NewPickup` of the row at its tail; an accepted dropoff row is exactly `OnDropoff` |
| Pairing.ApplyConserves | app.py:167-247 | every step accounts for each pickup: still queued, made a trip, or discarded; trips are only appended, exactly one for each `Emitted` |
| Pairing.ApplyQueueContents | app.py:201-229 | a deferral returns the claimed pickup to the queue, keeping its entries; a discard or emission removes the claimed entry exactly once |
| Pairing.ApplyKeepsTagged | app.py:167-229 | every queued pickup comment keeps its `PU Com: ` tag across a step |
| Pairing.EmittedComment | app.py:219-220 | a trip emitted from a tagged queue has a comment that starts with `PU Com: ` and contains ` / DO Com:` |
| Pairing.TaggedComment | app.py:220 | a tagged pickup comment joined to a tagged dropoff comment carries both tags |
| Driver.LongestIndex | app.py:309 | `max(tables, key=len)`: a longest table, and the first one among equals |
| Driver.DataRows | app.py:310-312 | every row kept is a data row |
| Driver.DataRowsMembers | app.py:310-312 | a row is kept exactly when it is in the table and is non-empty with a first cell that mentions neither `Planned` nor `Arrival` |
| Driver.DataRowsAppend | app.py:310-312 | the filter works row by row in order: the result for a concatenation is the concatenation of the results, and a single row is kept exactly when it is a data row |
| Driver.RunRows | app.py:310-314 | one outcome per row |
| Driver.RunRowsAppendLog | app.py:310-314 | running two batches of rows one after the other logs the outcomes of the first, then those of the second from where the first left the engine |
| Driver.RunRowsAppendEngine | app.py:310-314 | after two batches the engine is where the second batch, run from the first batch's engine, leaves it |
| Driver.RunRowsConserves | app.py:310-314 | across any run of rows every pickup is accounted for, and the trips grow by one per emitted trip |
| Driver.RunRowsKeepsTagged | app.py:310-314 | queued pickup comments keep their tag across any run of rows |
| Driver.PageContextOf | app.py:289-291 | a page uses its own run and mileage when it states them, and the first page's values when its run is `Unknown` or its mileage `0 km`; the date is always the first page's |
| Driver.PageLabel | app.py:286 | the label is `Page ` followed by the decimal digits of the page number plus one, without a leading zero |
| Driver.PageStep | app.py:283-314 | a page without text changes nothing; a page with text is listed; only a page with tables runs the rows of its longest table |
| Driver.RunPages | app.py:282-314 | the list of page texts only grows, by at most one per page; no pages leave the progress unchanged |
| Driver.RunPagesOne | app.py:282-314 | one page of the loop is exactly one `PageStep` |
| Driver.RunPagesAppend | app.py:282-314 | the loop over two batches of pages is the loop over the second started where the first left off, numbered on from it |
| Driver.RunPagesIsFold | app.py:282-314 | the page loop applies `PageStep` to each page in turn, numbering them on from `n` |
| Driver.FoldAppend | app.py:282-314 | a loop over pages, for any step, over two batches is the loop over the second from where the first stopped |
| Driver.RunPagesConserves | app.py:282-314 | the page loop only extends the outcome log, and pickups are conserved along the steps it adds |
| Driver.LeftoverTrip | app.py:321-333 | a leftover pickup becomes a record with blank dropoff fields, the first page's date and mileage, and its own pickup fields |
| Driver.Finalize | app.py:318-333 | the output is the matched trips, then every pickup still queued, in queue order |
| Driver.FinalizeAccounts | app.py:318-333 | starting from an empty engine, the output holds one record per pickup enqueued and not discarded |
| Driver.CsvName | app.py:278-279 | the file name is `extracted_runs_`, the date with each `/` turned into `-` and every other character kept, and `.csv` |
| Driver.BaseValues | app.py:276-277 | the date, run and mileage are those `extract_date_and_run` finds in the first page's text; the run and mileage are well formed |
| Driver.ExtractTaxiData | app.py:267-346 | no result without a first page; otherwise the output is the finalized page loop, under the CSV name of the first page's date |
| Driver.ExtractionCounts | app.py:267-346 | end to end: output records = pickups enqueued − pickups discarded; the matched trips come first, then the leftovers with blank dropoff fields |
| Scenarios.MatchIsPerEntry | app.py:204-209 | an earlier entry with the dropoff's name wins over a later entry with its ID |
| Scenarios.FallbackTakesHead | app.py:204-213 | with no ID or name match the head is claimed; an empty name does not match |
| Scenarios.TemporalSlack | app.py:222-231 | a dropoff 300 s before the pickup is not too early and 360 s before is; an unparsable hour or minute skips the check |
| Scenarios.SevenDigitId | app.py:105-107 | a seven-digit number yields its first six digits as the ID |
| Scenarios.TimeTakesTwoDigitHour | app.py:157-164 | the time regex takes a two-digit hour whole and stops after two minute digits |
| Scenarios.ClassifyExamples | app.py:134-145 | a cell that only contains `D` makes a dropoff, a later `P` cell makes a pickup, and lower case makes neither |
| Scenarios.DeferralMovesPickupToFront | app.py:191-229 | a dropoff that is too early for the pickup it claims by ID moves that pickup to the queue head, ahead of an older one; an empty address inherits the stored address |

## Left out

- The Streamlit user interface, the file upload and reset, the download
  button, logging and the `DataFrame`/CSV rendering are left out. They are
  presentation and have no effect on the trips.
- `pdfplumber` is left out: opening the file and `extract_text` /
  `extract_tables` with their table settings. A page is given as its text and
  its tables.
- `datetime.now()` is the `today` parameter.
- `find_final_dropoff_details` returns `(None, None)` and is never called.
- `raw_page_texts_by_run` is written but never read.
- `\d` and `\s` use Python's ASCII digits and its `isspace` blanks.
  - Python's `re` on `str` also accepts other Unicode decimal digits for `\d`.
  - Run sheets are not expected to contain them.
- An error anywhere in the source is re-raised as `ValueError`. The model has
  one error: a file without pages gives `None`. Every other input is total in
  the model.
- Times reaching `strptime` always have the shape the time regex captured.
  `ParseClock` is exact for those shapes. Other shapes are outside its
  contract.
- Strings.JoinSplit, Strings.SplitRoundTrip: the lemmas are stated for a
  single-character separator. `split(cust_id)` (app.py:111) uses a longer one;
  for it the model relies on `Rows.IdSplitsAtMatch` instead.
- Normalize.StripHeaders: its contract only says that no line break is
  introduced. The patterns themselves are defined exactly.
- Normalize.ExpandAbbreviations: its contract only says that no line break is
  introduced. Its table-order behaviour is fixed by its definition through
  `ApplyTable`.
- Normalize.CollapseSeparators: its contract only says that no line break is
  introduced.
- Normalize.CleanCommentText: the contract states the shape of the result,
  not its full contents. No idempotence is claimed, because the code is not
  idempotent (see above).
- Normalize.ApplyTable: the contract bounds the characters of the result; it
  does not state where each replacement lands.
- Rows.ParseNameIdComments: the comment text is defined exactly through
  `CleanCommentText`, but the contract states only that it is one line.
- Driver.RunRows: its contract states only that there is one outcome per row.
  What the run does is stated by `Driver.RunRowsConserves`,
  `Driver.RunRowsKeepsTagged` and the two append lemmas.
- Driver.DataRows: its contract states only that every kept row is a data row.
  Membership and order are stated by `Driver.DataRowsMembers` and
  `Driver.DataRowsAppend`.
- Rows.CommentCells: its contract bounds only the length. What each cell
  contributes (its lines joined by ` / `, or nothing when blank) is stated
  by `Rows.CommentOf`, and the order by `Rows.CommentCellsAppend`.
- Rows.NotesAfter: when the ID does occur after the name, the contract does
  not state where it was removed. Removing it can join two pieces into a new
  occurrence, so the text may still contain it.
- Driver.RunPages: its own contract states the page-text list and that no
  pages change nothing. `Driver.RunPagesOne` and `Driver.RunPagesAppend`
  fix the loop to one `PageStep` per page in order, and
  `Driver.RunPagesConserves` states conservation along it.

=== FILE: driver.dfy ===
/** The page driver and finalizer of `extract_taxi_data` (app.py:267-346)
    with the PDF library calls replaced by pages given as text and tables. */
module Driver {
  import opened Wrappers
  import opened Strings
  import opened Metadata
  import opened Rows
  import opened Pairing

  /** A page as the PDF library hands it over: its text and its tables. */
  datatype Page = Page(text: string, tables: seq<seq<Row>>)

  /** The three results of `extract_taxi_data` (app.py:346). */
  datatype Extraction = Extraction(trips: seq<Trip>, csvName: string, pageTexts: seq<(string, string)>)

  /** The state carried across pages, with the log of step outcomes. */
  datatype Progress = Progress(engine: Engine, log: seq<Outcome>, pageTexts: seq<(string, string)>)

  // ---------------------------------------------------------------------
  // Choosing and filtering rows

  /** `max(tables, key=len)` (app.py:309): the first of the longest tables. */
  function LongestIndex(tables: seq<seq<Row>>): (k: nat)
    requires |tables| > 0
    ensures k < |tables|
    ensures forall i :: 0 <= i < |tables| ==> |tables[i]| <= |tables[k]|
    ensures forall i :: 0 <= i < k ==> |tables[i]| < |tables[k]|
    decreases |tables|
  {
    if |tables| == 1 then 0
    else
      var k := LongestIndex(tables[..|tables| - 1]);
      if |tables[|tables| - 1]| > |tables[k]| then |tables| - 1 else k
  }

  /** `str(cell)`: an absent cell prints as `None`. */
  function CellText(c: Cell): string {
    match c
    case None => "None"
    case Some(v) => v
  }

  /** The row is worth processing (app.py:311): it has a cell, some cell is a
      non-empty text, and its first cell names neither the `Planned` nor the
      `Arrival` header. */
  predicate IsDataRow(row: Row) {
    && |row| > 0
    && (exists i :: 0 <= i < |row| && row[i].Some? && row[i].value != "")
    && !Contains(CellText(row[0]), "Planned")
    && !Contains(CellText(row[0]), "Arrival")
  }

  /** The rows of a table the loop of app.py:310-314 processes, in order. */
  function DataRows(table: seq<Row>): (r: seq<Row>)
    ensures |r| <= |table|
    ensures forall i :: 0 <= i < |r| ==> IsDataRow(r[i])
    decreases |table|
  {
    if |table| == 0 then []
    else
      var rest := DataRows(table[1..]);
      if IsDataRow(table[0]) then [table[0]] + rest else rest
  }

  /** The rows kept are exactly the table's data rows. */
  lemma {:induction false} DataRowsMembers(table: seq<Row>)
    ensures forall row :: row in DataRows(table) <==> row in table && IsDataRow(row)
    decreases |table|
  {
    if |table| > 0 {
      DataRowsMembers(table[1..]);
      assert forall row :: row in table <==> row == table[0] || row in table[1..];
    }
  }

  /** Filtering distributes over concatenation and keeps a single row exactly
      when it is a data row, so `DataRows` keeps the data rows in their
      order, each as often as it occurs. */
  lemma {:induction false} DataRowsAppend(a: seq<Row>, b: seq<Row>)
    ensures DataRows(a + b) == DataRows(a) + DataRows(b)
    ensures |a| == 1 ==> DataRows(a) == if IsDataRow(a[0]) then a else []
    decreases |a|
  {
    if |a| == 0 {
      assert a + b == b;
    } else {
      var h := if IsDataRow(a[0]) then [a[0]] else [];
      ConsSplit(a, b);
      DataRowsUnfold(a + b);
      DataRowsUnfold(a);
      DataRowsAppend(a[1..], b);
      ConcatChain(DataRows(a + b), DataRows((a + b)[1..]), DataRows(a), DataRows(a[1..]), DataRows(b), h);
      if |a| == 1 {
        assert a[1..] == [] && DataRows(a[1..]) == [];
        assert [a[0]] == a;
      }
    }
  }

  /** One step of `DataRows`. */
  lemma DataRowsUnfold(table: seq<Row>)
    requires |table| > 0
    ensures DataRows(table) == (if IsDataRow(table[0]) then [table[0]] else []) + DataRows(table[1..])
  {
  }

  // ---------------------------------------------------------------------
  // Running rows

  /** The rows of one table processed in order, with the outcome of each. */
  function RunRows(e: Engine, rows: seq<Row>, ctx: PageContext): (r: (Engine, seq<Outcome>))
    ensures |r.1| == |rows|
    decreases |rows|
  {
    if |rows| == 0 then (e, [])
    else
      var s := Step(e, rows[0], ctx);
      var rest := RunRows(s.engine, rows[1..], ctx);
      (rest.0, [s.outcome] + rest.1)
  }

  /** Running two batches of rows one after the other is running them
      together: the engine flows from the first into the second and the
      outcomes line up in row order. */
  lemma {:induction false} RunRowsAppendLog(e: Engine, a: seq<Row>, b: seq<Row>, ctx: PageContext)
    ensures var first := RunRows(e, a, ctx);
      RunRows(e, a + b, ctx).1 == first.1 + RunRows(first.0, b, ctx).1
    decreases |a|
  {
    if |a| == 0 {
      assert a + b == b;
    } else {
      var s := Step(e, a[0], ctx);
      var ab := a + b;
      ConsSplit(a, b);
      RunRowsUnfold(e, ab, ctx);
      RunRowsUnfold(e, a, ctx);
      RunRowsAppendLog(s.engine, a[1..], b, ctx);
      var f1 := RunRows(s.engine, a[1..], ctx);
      ConcatChain(RunRows(e, ab, ctx).1, RunRows(s.engine, ab[1..], ctx).1, RunRows(e, a, ctx).1, f1.1,
                  RunRows(f1.0, b, ctx).1, [s.outcome]);
    }
  }

  /** One step of `RunRows`. */
  lemma RunRowsUnfold(e: Engine, rows: seq<Row>, ctx: PageContext)
    requires |rows| > 0
    ensures var s := Step(e, rows[0], ctx);
      var rest := RunRows(s.engine, rows[1..], ctx);
      RunRows(e, rows, ctx).0 == rest.0 && RunRows(e, rows, ctx).1 == [s.outcome] + rest.1
  {
  }

  /** The engine half: after `a + b` the engine is where running `b` from
      the engine `a` left behind takes it. */
  lemma {:induction false} RunRowsAppendEngine(e: Engine, a: seq<Row>, b: seq<Row>, ctx: PageContext)
    ensures RunRows(e, a + b, ctx).0 == RunRows(RunRows(e, a, ctx).0, b, ctx).0
    decreases |a|
  {
    if |a| == 0 {
      assert a + b == b;
    } else {
      ConsSplit(a, b);
      RunRowsAppendEngine(Step(e, a[0], ctx).engine, a[1..], b, ctx);
    }
  }

  /** Across any run of rows every pickup is accounted for, and the trip
      list grows by one per `Emitted` step. */
  lemma {:induction false} RunRowsConserves(e: Engine, rows: seq<Row>, ctx: PageContext)
    ensures var r := RunRows(e, rows, ctx);
      Conserved(e, r.0, r.1) && |r.0.trips| == |e.trips| + multiset(r.1)[Emitted]
    decreases |rows|
  {
    if |rows| > 0 {
      var s := Step(e, rows[0], ctx);
      ApplyConserves(e, ParseRow(rows[0]), ctx);
      var rest := RunRows(s.engine, rows[1..], ctx);
      RunRowsConserves(s.engine, rows[1..], ctx);
      ConservedChain(e, s.engine, rest.0, [s.outcome], rest.1);
      assert multiset([s.outcome] + rest.1) == multiset{s.outcome} + multiset(rest.1);
    }
  }

  /** Queued pickup comments keep their tag across any run of rows. */
  lemma {:induction false} RunRowsKeepsTagged(e: Engine, rows: seq<Row>, ctx: PageContext)
    requires Tagged(e.queue)
    ensures Tagged(RunRows(e, rows, ctx).0.queue)
    decreases |rows|
  {
    if |rows| > 0 {
      ApplyKeepsTagged(e, ParseRow(rows[0]), ctx);
      RunRowsKeepsTagged(Step(e, rows[0], ctx).engine, rows[1..], ctx);
    }
  }

  // ---------------------------------------------------------------------
  // Pages

  /** The run and mileage a page's rows are processed with (app.py:289-291):
      the page's own values, with `Unknown` and `0 km` falling back to the
      first page's; the date is always the first page's. */
  function PageContextOf(text: string, base: Metadata, today: string): (ctx: PageContext)
    ensures ctx.date == base.date
    ensures (base.runNumber == UnknownRun || IsRunId(base.runNumber)) ==>
      ctx.runNumber == UnknownRun || IsRunId(ctx.runNumber)
    ensures IsMileage(base.mileage) ==> IsMileage(ctx.mileage)
    ensures !NamesRun(text) ==> ctx.runNumber == base.runNumber
    ensures NamesRun(text) ==> ctx.runNumber == RunNumberOf(text)
    ensures MileageOf(text) == NoMileage ==> ctx.mileage == base.mileage
    ensures MileageOf(text) != NoMileage ==> ctx.mileage == MileageOf(text)
  {
    var m := ExtractDateAndRun(text, today);
    PageContext(base.date,
                if m.runNumber == UnknownRun then base.runNumber else m.runNumber,
                if m.mileage == NoMileage then base.mileage else m.mileage)
  }

  /** The label a page's text is listed under (app.py:286). */
  function PageLabel(n: nat): (r: string)
    ensures |r| > 5 && r[..5] == "Page "
    ensures AllIn(r[5..], Digit) && DecimalValue(r[5..]) == n + 1 && r[5] != '0'
  {
    "Page " + NatToString(n + 1)
  }

  /** One page of the loop (app.py:283-314). A page with no text is skipped
      whole; a page without tables contributes only its text. */
  function PageStep(p: Progress, page: Page, n: nat, base: Metadata, today: string): (r: Progress)
    ensures page.text == "" ==> r == p
    ensures page.text != "" ==> r.pageTexts == p.pageTexts + [(PageLabel(n), page.text)]
    ensures page.text == "" || |page.tables| == 0 ==> r.engine == p.engine && r.log == p.log
    ensures page.text != "" && |page.tables| > 0 ==>
      var run := RunRows(p.engine, DataRows(page.tables[LongestIndex(page.tables)]),
                         PageContextOf(page.text, base, today));
      r.engine == run.0 && r.log == p.log + run.1
  {
    if page.text == "" then p
    else
      var ctx := PageContextOf(page.text, base, today);
      var texts := p.pageTexts + [(PageLabel(n), page.text)];
      if |page.tables| == 0 then Progress(p.engine, p.log, texts)
      else
        var run := RunRows(p.engine, DataRows(page.tables[LongestIndex(page.tables)]), ctx);
        Progress(run.0, p.log + run.1, texts)
  }

  /** The loop over pages (app.py:282-314); `n` numbers `pages[0]`. Every
      page with text is listed once, in order, under its label. */
  function RunPages(p: Progress, pages: seq<Page>, n: nat, base: Metadata, today: string): (r: Progress)
    ensures |p.pageTexts| <= |r.pageTexts| <= |p.pageTexts| + |pages|
    ensures r.pageTexts[..|p.pageTexts|] == p.pageTexts
    ensures |pages| == 0 ==> r == p
    decreases |pages|
  {
    if |pages| == 0 then p
    else
      var next := PageStep(p, pages[0], n, base, today);
      var r := RunPages(next, pages[1..], n + 1, base, today);
      assert r.pageTexts[..|p.pageTexts|] == r.pageTexts[..|next.pageTexts|][..|p.pageTexts|];
      r
  }

  /** One step of `RunPages`. */
  lemma RunPagesUnfold(p: Progress, pages: seq<Page>, n: nat, base: Metadata, today: string)
    requires |pages| > 0
    ensures RunPages(p, pages, n, base, today) ==
      RunPages(PageStep(p, pages[0], n, base, today), pages[1..], n + 1, base, today)
  {
  }

  /** A single page is one `PageStep`. */
  lemma RunPagesOne(p: Progress, page: Page, n: nat, base: Metadata, today: string)
    ensures RunPages(p, [page], n, base, today) == PageStep(p, page, n, base, today)
  {
  }

  /** Running two batches of pages one after the other is running them
      together: the progress flows from the first batch into the second,
      whose pages are numbered on from where the first stopped. */
  lemma RunPagesAppend(p: Progress, a: seq<Page>, b: seq<Page>, n: nat, base: Metadata, today: string)
    ensures RunPages(p, a + b, n, base, today) == RunPages(RunPages(p, a, n, base, today), b, n + |a|, base, today)
  {
    RunPagesIsFold(p, a + b, n, base, today);
    RunPagesIsFold(p, a, n, base, today);
    RunPagesIsFold(RunPages(p, a, n, base, today), b, n + |a|, base, today);
    FoldAppend(p, a, b, n, PageStepOf(base, today));
  }

  /** `PageStep` for the given first-page values, as a step function. */
  function PageStepOf(base: Metadata, today: string): (Progress, Page, nat) -> Progress {
    (q: Progress, page: Page, k: nat) => PageStep(q, page, k, base, today)
  }

  /** The page loop over any step function. */
  function Fold(p: Progress, pages: seq<Page>, n: nat, step: (Progress, Page, nat) -> Progress): Progress
    decreases |pages|
  {
    if |pages| == 0 then p else Fold(step(p, pages[0], n), pages[1..], n + 1, step)
  }

  /** `RunPages` is the fold of `PageStep`. */
  lemma {:induction false} RunPagesIsFold(p: Progress, pages: seq<Page>, n: nat, base: Metadata, today: string)
    ensures RunPages(p, pages, n, base, today) ==
      Fold(p, pages, n, PageStepOf(base, today))
    decreases |pages|
  {
    if |pages| > 0 {
      RunPagesIsFold(PageStep(p, pages[0], n, base, today), pages[1..], n + 1, base, today);
    }
  }

  /** The fold over two batches is the fold over the second from where the
      first stopped. */
  lemma {:induction false} FoldAppend(p: Progress, a: seq<Page>, b: seq<Page>, n: nat, step: (Progress, Page, nat) -> Progress)
    ensures Fold(p, a + b, n, step) == Fold(Fold(p, a, n, step), b, n + |a|, step)
    decreases |a|
  {
    if |a| == 0 {
      assert a + b == b;
    } else {
      ConsSplit(a, b);
      FoldAppend(step(p, a[0], n), a[1..], b, n + 1, step);
    }
  }

  /** One page extends the log and conserves pickups along the steps it
      adds. */
  lemma PageStepConserves(p: Progress, page: Page, n: nat, base: Metadata, today: string)
    ensures var next := PageStep(p, page, n, base, today);
      p.log <= next.log && Conserved(p.engine, next.engine, next.log[|p.log|..])
  {
    var next := PageStep(p, page, n, base, today);
    if page.text != "" && |page.tables| > 0 {
      var rows := DataRows(page.tables[LongestIndex(page.tables)]);
      var ctx := PageContextOf(page.text, base, today);
      RunRowsConserves(p.engine, rows, ctx);
      assert next.log[|p.log|..] == RunRows(p.engine, rows, ctx).1;
    } else {
      assert next.log[|p.log|..] == [];
    }
  }

  /** Conservation along two consecutive extensions of a log. */
  lemma ChainLogs(a: Engine, b: Engine, c: Engine, la: seq<Outcome>, lb: seq<Outcome>, lc: seq<Outcome>)
    requires la <= lb && Conserved(a, b, lb[|la|..])
    requires lb <= lc && Conserved(b, c, lc[|lb|..])
    ensures la <= lc && Conserved(a, c, lc[|la|..])
  {
    ConservedChain(a, b, c, lb[|la|..], lc[|lb|..]);
    assert lc[|la|..] == lb[|la|..] + lc[|lb|..];
  }

  /** The page loop extends the log and conserves pickups along the steps
      it adds. */
  lemma {:induction false} RunPagesConserves(p: Progress, pages: seq<Page>, n: nat, base: Metadata, today: string)
    ensures var r := RunPages(p, pages, n, base, today);
      p.log <= r.log && Conserved(p.engine, r.engine, r.log[|p.log|..])
    decreases |pages|
  {
    if |pages| == 0 {
      assert p.log[|p.log|..] == [];
    } else {
      var next := PageStep(p, pages[0], n, base, today);
      var r := RunPages(next, pages[1..], n + 1, base, today);
      PageStepConserves(p, pages[0], n, base, today);
      RunPagesConserves(next, pages[1..], n + 1, base, today);
      ChainLogs(p.engine, next.engine, r.engine, p.log, next.log, r.log);
    }
  }

  // ---------------------------------------------------------------------
  // Finalizing

  /** The record a leftover pickup becomes (app.py:321-333). */
  function LeftoverTrip(p: Pickup, date: string, mileage: string): (t: Trip)
    ensures t.dropoffAddress == "" && t.dropOffTime == ""
    ensures t.date == date && t.mileage == mileage
    ensures t.runNumber == p.runNumber && t.pickUpTime == p.time && t.customerName == p.name
    ensures t.customerId == p.id && t.pickupAddress == p.address && t.comments == p.comments
  {
    Trip(date, p.runNumber, p.time, p.name, p.id, p.address, "", "", p.comments, mileage)
  }

  /** The matched trips followed by every pickup still queued, in queue
      order, with blank dropoff fields (app.py:318-333). */
  function Finalize(e: Engine, date: string, mileage: string): (r: seq<Trip>)
    ensures |r| == |e.trips| + |e.queue|
    ensures r[..|e.trips|] == e.trips
    ensures forall i :: 0 <= i < |e.queue| ==> r[|e.trips| + i] == LeftoverTrip(e.queue[i], date, mileage)
  {
    e.trips + seq(|e.queue|, i requires 0 <= i < |e.queue| => LeftoverTrip(e.queue[i], date, mileage))
  }

  /** The output file name (app.py:278-279): the date with `/` turned into `-`. */
  function CsvName(date: string): (r: string)
    ensures '/' !in r
    ensures |r| == |date| + 19 && r[..15] == "extracted_runs_" && r[|r| - 4..] == ".csv"
    ensures forall i :: 0 <= i < |date| ==> r[15 + i] == (if date[i] == '/' then '-' else date[i])
  {
    var d := ReplaceAll(date, "/", "-");
    ReplaceChar(date, '/', '-');
    "extracted_runs_" + d + ".csv"
  }

  /** Where the first page's date, run and mileage come from (app.py:276-277). */
  function BaseValues(pages: seq<Page>, today: string): (m: Metadata)
    requires |pages| > 0
    ensures m.runNumber == UnknownRun || IsRunId(m.runNumber)
    ensures IsMileage(m.mileage)
    ensures m.date == DateOf(pages[0].text, today)
    ensures m.runNumber == RunNumberOf(pages[0].text) && m.mileage == MileageOf(pages[0].text)
  {
    ExtractDateAndRun(pages[0].text, today)
  }

  /** `extract_taxi_data` without the PDF calls (app.py:267-346); `today` is
      the current date as `MM/DD/YYYY`. A file without pages has no first
      page, which the source reports as an error. */
  function ExtractTaxiData(pages: seq<Page>, today: string): (r: Option<Extraction>)
    ensures r.None? <==> |pages| == 0
    ensures r.Some? ==> '/' !in r.value.csvName
    ensures r.Some? ==>
      var base := BaseValues(pages, today);
      var p := RunPages(Progress(Fresh, [], []), pages, 0, base, today);
      && r.value.trips == Finalize(p.engine, base.date, base.mileage)
      && r.value.pageTexts == p.pageTexts
      && r.value.csvName == CsvName(base.date)
  {
    if |pages| == 0 then None
    else
      var base := BaseValues(pages, today);
      var p := RunPages(Progress(Fresh, [], []), pages, 0, base, today);
      Some(Extraction(Finalize(p.engine, base.date, base.mileage), CsvName(base.date), p.pageTexts))
  }

  /** End to end: the output holds one record per enqueued pickup that was not
      discarded, the matched trips first and the leftovers after them. */
  lemma ExtractionCounts(pages: seq<Page>, today: string)
    requires |pages| > 0
    ensures var base := BaseValues(pages, today);
      var p := RunPages(Progress(Fresh, [], []), pages, 0, base, today);
      var out := ExtractTaxiData(pages, today).value.trips;
      && |out| + multiset(p.log)[Discarded] == multiset(p.log)[Enqueued]
      && out[..|p.engine.trips|] == p.engine.trips
      && forall i :: |p.engine.trips| <= i < |out| ==> out[i].dropoffAddress == "" && out[i].dropOffTime == ""
  {
    var base := BaseValues(pages, today);
    var p := RunPages(Progress(Fresh, [], []), pages, 0, base, today);
    RunPagesConserves(Progress(Fresh, [], []), pages, 0, base, today);
    assert p.log[0..] == p.log;
    FinalizeAccounts(p.engine, p.log, base.date, base.mileage);
  }

  /** From an empty engine, the finalized output holds one record per pickup
      enqueued and not discarded, leftovers after the matched trips. */
  lemma FinalizeAccounts(e: Engine, log: seq<Outcome>, date: string, mileage: string)
    requires Conserved(Fresh, e, log)
    ensures var out := Finalize(e, date, mileage);
      && |out| + multiset(log)[Discarded] == multiset(log)[Enqueued]
      && out[..|e.trips|] == e.trips
      && forall i :: |e.trips| <= i < |out| ==> out[i].dropoffAddress == "" && out[i].dropOffTime == ""
  {
    var out := Finalize(e, date, mileage);
    var n := |e.trips|;
    forall i | n <= i < |out|
      ensures out[i].dropoffAddress == "" && out[i].dropOffTime == ""
    {
      var k := i - n;
      assert i == n + k;
      assert out[n + k] == LeftoverTrip(e.queue[k], date, mileage);
    }
  }
}

=== FILE: metadata.dfy ===
/** Document metadata found in a page's text: service date, run number and
    mileage (`extract_date_and_run`, app.py:82-98). */
module Metadata {
  import opened Wrappers
  import opened Strings

  datatype Metadata = Metadata(date: string, runNumber: string, mileage: string)

  /** Run number used when the text names none. */
  const UnknownRun: string := "Unknown"

  /** Mileage used when the text states none. */
  const NoMileage: string := "0 km"

  /** `DDDD/DD/DD` starts at `i`. */
  predicate DateAt(s: string, i: nat) {
    && i + 10 <= |s|
    && IsDigit(s[i]) && IsDigit(s[i + 1]) && IsDigit(s[i + 2]) && IsDigit(s[i + 3])
    && s[i + 4] == '/' && IsDigit(s[i + 5]) && IsDigit(s[i + 6])
    && s[i + 7] == '/' && IsDigit(s[i + 8]) && IsDigit(s[i + 9])
  }

  /** Where the date of `(?:[A-Za-z]+)?\s*(\d{4})/(\d{2})/(\d{2})` is found.
      The optional word and the blanks before the digits cannot contain a
      digit, so the digits of the leftmost match are the first `DDDD/DD/DD`
      in the text. */
  function FindDate(s: string): (r: Option<nat>)
    ensures r.Some? ==> DateAt(s, r.value) && forall j :: 0 <= j < r.value ==> !DateAt(s, j)
    ensures r.None? ==> forall j :: 0 <= j < |s| ==> !DateAt(s, j)
  {
    var p := (j: nat) => DateAt(s, j);
    var r := FirstWhere(|s|, 0, p);
    assert forall j :: 0 <= j < |s| && (r.None? || j < r.value) ==> !DateAt(s, j) by {
      forall j | 0 <= j < |s| && (r.None? || j < r.value) ensures !DateAt(s, j) {
        assert !p(j);
      }
    }
    r
  }

  /** Where `TTM` starts after `Run` at `i`, skipping the colons and blanks
      that `Run\s*[:\s]*` allows; the letters must follow the whole run of
      them, since `T` is neither. */
  function RunIdStart(s: string, i: nat): nat
    requires i + 3 <= |s|
  {
    i + 3 + Span(s, i + 3, SpaceOrColon)
  }

  /** `Run\s*[:\s]*(TTM\d{4})` matches at `i`. */
  predicate RunAt(s: string, i: nat) {
    && OccursAt(s, "Run", i)
    && var k := RunIdStart(s, i);
       k + 7 <= |s| && OccursAt(s, "TTM", k)
       && IsDigit(s[k + 3]) && IsDigit(s[k + 4]) && IsDigit(s[k + 5]) && IsDigit(s[k + 6])
  }

  /** Some `Run ... TTM####` match occurs in the text. */
  predicate NamesRun(s: string) {
    exists j :: 0 <= j < |s| && RunAt(s, j)
  }

  /** Some `Mileage: ... km` match occurs in the text. */
  predicate StatesMileage(s: string) {
    exists j :: 0 <= j < |s| && MileageAt(s, j)
  }

  /** A run identifier: `TTM` and four digits. */
  predicate IsRunId(r: string) {
    |r| == 7 && r[..3] == "TTM" && forall i :: 3 <= i < 7 ==> IsDigit(r[i])
  }

  /** Bounds of the number in `Mileage:\s*([\d.]+)\s*km` matched at `i`: the
      number is the longest run of digits and dots after the blanks, since a
      shorter one would leave a digit or dot where `\s*km` must start. */
  function MileageNumber(s: string, i: nat): (r: (nat, nat))
    requires OccursAt(s, "Mileage:", i)
    ensures i + 8 <= r.0 <= r.1 <= |s|
    ensures AllIn(s[i + 8..r.0], Space) && (r.0 == |s| || !IsSpace(s[r.0]))
    ensures AllIn(s[r.0..r.1], DigitOrDot) && (r.1 == |s| || !DigitOrDot.Has(s[r.1]))
    ensures IsDecimalText(s[r.0..r.1])
  {
    var k := i + 8 + Span(s, i + 8, Space);
    var e := k + Span(s, k, DigitOrDot);
    assert AllIn(s[i + 8..k], Space);
    assert AllIn(s[k..e], DigitOrDot);
    assert IsDecimalText(s[k..e]) by {
      forall j | 0 <= j < e - k ensures IsDigit(s[k..e][j]) || s[k..e][j] == '.' {
        assert DigitOrDot.Has(s[k + j]);
      }
    }
    (k, e)
  }

  /** Digits and dots only. */
  predicate IsDecimalText(n: string) {
    forall i :: 0 <= i < |n| ==> IsDigit(n[i]) || n[i] == '.'
  }

  /** `Mileage:\s*([\d.]+)\s*km` matches at `i`. */
  predicate MileageAt(s: string, i: nat) {
    && OccursAt(s, "Mileage:", i)
    && var (k, e) := MileageNumber(s, i);
       k < e && OccursAt(s, "km", e + Span(s, e, Space))
  }

  /** A mileage: a non-empty run of digits and dots followed by ` km`. */
  predicate IsMileage(m: string) {
    |m| > 3 && m[|m| - 3..] == " km" && IsDecimalText(m[..|m| - 3])
  }

  /** `MM/DD/YYYY` back to `YYYY/MM/DD`. */
  function ToYearFirst(d: string): string
    requires |d| == 10
  {
    d[6..10] + "/" + d[..2] + "/" + d[3..5]
  }

  /** Where the leftmost `Run ... TTM####` match starts. */
  function FindRun(s: string): (r: Option<nat>)
    ensures r.Some? ==> r.value < |s| && RunAt(s, r.value)
    ensures r.Some? ==> forall j :: 0 <= j < r.value ==> !RunAt(s, j)
    ensures r.None? ==> forall j :: 0 <= j < |s| ==> !RunAt(s, j)
  {
    var p := (j: nat) => RunAt(s, j);
    var r := FirstWhere(|s|, 0, p);
    assert r.None? ==> forall j :: 0 <= j < |s| ==> !RunAt(s, j) by {
      forall j | r.None? && 0 <= j < |s| ensures !RunAt(s, j) {
        assert !p(j);
      }
    }
    assert r.Some? ==> forall j :: 0 <= j < r.value ==> !RunAt(s, j) by {
      forall j | r.Some? && 0 <= j < r.value ensures !RunAt(s, j) {
        assert !p(j);
      }
    }
    r
  }

  /** Where the leftmost `Mileage: ... km` match starts. */
  function FindMileage(s: string): (r: Option<nat>)
    ensures r.Some? ==> r.value < |s| && MileageAt(s, r.value)
    ensures r.Some? ==> forall j :: 0 <= j < r.value ==> !MileageAt(s, j)
    ensures r.None? ==> forall j :: 0 <= j < |s| ==> !MileageAt(s, j)
  {
    var p := (j: nat) => MileageAt(s, j);
    var r := FirstWhere(|s|, 0, p);
    assert r.None? ==> forall j :: 0 <= j < |s| ==> !MileageAt(s, j) by {
      forall j | r.None? && 0 <= j < |s| ensures !MileageAt(s, j) {
        assert !p(j);
      }
    }
    assert r.Some? ==> forall j :: 0 <= j < r.value ==> !MileageAt(s, j) by {
      forall j | r.Some? && 0 <= j < r.value ensures !MileageAt(s, j) {
        assert !p(j);
      }
    }
    r
  }

  /** The service date: the first `YYYY/MM/DD` rewritten as `MM/DD/YYYY`,
      else `today`. */
  function DateOf(text: string, today: string): (r: string)
    ensures FindDate(text).None? ==> r == today
    ensures FindDate(text).Some? ==>
      var j := FindDate(text).value;
      |r| == 10 && r[2] == '/' && r[5] == '/' && ToYearFirst(r) == text[j..j + 10]
  {
    match FindDate(text)
    case Some(j) =>
      var r := text[j + 5..j + 7] + "/" + text[j + 8..j + 10] + "/" + text[j..j + 4];
      assert ToYearFirst(r) == text[j..j + 4] + "/" + text[j + 5..j + 7] + "/" + text[j + 8..j + 10];
      assert text[j..j + 10] == text[j..j + 4] + "/" + text[j + 5..j + 7] + "/" + text[j + 8..j + 10];
      r
    case None => today
  }

  /** The run number of the first `Run ... TTM####`, else `Unknown`. */
  function RunNumberOf(text: string): (r: string)
    ensures r == UnknownRun <==> FindRun(text).None?
    ensures r != UnknownRun ==> r == RunIdAt(text, FindRun(text).value)
  {
    match FindRun(text)
    case None => UnknownRun
    case Some(j) => RunIdAt(text, j)
  }

  /** The `TTM####` of a `Run` match at `j`: a run identifier taken from
      the text, never `Unknown`. */
  function RunIdAt(text: string, j: nat): (r: string)
    requires j < |text| && RunAt(text, j)
    ensures IsRunId(r) && r != UnknownRun
    ensures OccursAt(text, r, RunIdStart(text, j))
  {
    var k := RunIdStart(text, j);
    var r := text[k..k + 7];
    assert r[..3] == text[k..k + 3] == "TTM";
    assert r[0] == 'T' && UnknownRun[0] == 'U';
    r
  }

  /** The run number is `Unknown` exactly when no `Run ... TTM####` occurs. */
  lemma RunNumberUnknown(text: string)
    ensures RunNumberOf(text) == UnknownRun <==> !NamesRun(text)
  {
    var f := FindRun(text);
    if f.Some? {
      assert RunAt(text, f.value);
    }
  }

  /** The mileage of the first `Mileage: <number> km`, else `0 km`. An
      explicit `Mileage: 0 km` also yields `0 km`. */
  function MileageOf(text: string): (r: string)
    ensures IsMileage(r)
    ensures FindMileage(text).None? ==> r == NoMileage
    ensures FindMileage(text).Some? ==>
      r == MileageText(text, FindMileage(text).value) + " km"
  {
    match FindMileage(text)
    case Some(j) =>
      MileageShape(MileageText(text, j));
      MileageText(text, j) + " km"
    case None =>
      MileageShape("0");
      NoMileage
  }

  /** The number of the mileage match at `j`. */
  function MileageText(text: string, j: nat): (n: string)
    requires MileageAt(text, j)
    ensures |n| > 0 && IsDecimalText(n)
    ensures var k := MileageNumber(text, j).0;
      && OccursAt(text, n, k) && AllIn(text[j + 8..k], Space)
      && (k + |n| == |text| || !DigitOrDot.Has(text[k + |n|]))
  {
    var (k, e) := MileageNumber(text, j);
    assert text[k..e][..] == text[k..k + (e - k)];
    text[k..e]
  }

  lemma MileageShape(n: string)
    requires |n| > 0 && IsDecimalText(n)
    ensures IsMileage(n + " km")
  {
    var m := n + " km";
    assert m[|m| - 3..] == " km";
    assert m[..|m| - 3] == n;
  }

  /** `extract_date_and_run`: `today` stands for `datetime.now()` rendered as
      `MM/DD/YYYY`. */
  function ExtractDateAndRun(text: string, today: string): (r: Metadata)
    ensures r.runNumber == RunNumberOf(text) && r.mileage == MileageOf(text)
    ensures r.runNumber == UnknownRun || IsRunId(r.runNumber)
    ensures r.runNumber == UnknownRun <==> !NamesRun(text)
    ensures IsMileage(r.mileage)
    ensures !StatesMileage(text) ==> r.mileage == NoMileage
    ensures FindDate(text).None? ==> r.date == today
    ensures FindDate(text).Some? ==>
      var j := FindDate(text).value;
      |r.date| == 10 && r.date[2] == '/' && r.date[5] == '/' && ToYearFirst(r.date) == text[j..j + 10]
  {
    RunNumberUnknown(text);
    Metadata(DateOf(text, today), RunNumberOf(text), MileageOf(text))
  }
}

=== FILE: normalize.dfy ===
/** Text normalization of free-text fields: the city-code and abbreviation
    tables, the comment cleaner and the address splitter (app.py:23-80). */
module Normalize {
  import opened Wrappers
  import opened Strings
  import opened Patterns

  /** City codes and their expansions, in declaration order. */
  const CityMapping: seq<(string, string)> := [
    ("NORTH", "NORTH YORK"), ("SCARB", "SCARBOROUGH"), ("TOROT", "TORONTO"),
    ("MARKH", "MARKHAM"), ("EASTY", "EAST YORK"), ("ETOBI", "ETOBICOKE"),
    ("VAUGH", "VAUGHAN"), ("MISSI", "MISSISSAUGA"), ("PICKE", "PICKERING")
  ]

  /** Comment abbreviations and their expansions, in declaration order: the
      order matters, since `FRONT ENTR` must be expanded before `FRONT`. */
  const CommentReplacements: seq<(string, string)> := [
    ("DNLU", "Do Not Leave Unattended"), ("MAND.ESC", "Mandatory Escort / Support Person Required"),
    ("COG", "Cognitive (disability)"), ("APT BLDG", "Apartment Building"), ("MSP", "Mandatory Support Person"),
    ("FRONT ENTR", "Front Entrance"), ("FRONT", "Front Entrance"), ("CHEMO", "Chemotherapy (medical condition)"),
    ("SUP. PER", "Support Person"), ("SEIZ", "Seizures (medical condition)"), ("MAIN ENT", "Main Entrance"),
    ("EPILEPSY", "Epilepsy (medical condition)"), ("CX", "Customer"), ("P/U", "Pickup"), ("PU", "Pickup"),
    ("D/O", "Dropoff"), ("DO", "Dropoff"), ("SPAC", "Support Person Card"), ("ADP", "A Day Program"),
    ("CANE", "CANE"), ("WALKER", "WALKER"), ("KF", "Folding Cane or Walker"),
    ("KNF", "Non-folding Cane or Walker"), ("WNF", "Walker non folding")
  ]

  predicate KeysNonEmpty(tbl: seq<(string, string)>) {
    forall i :: 0 <= i < |tbl| ==> |tbl[i].0| > 0
  }

  /** `c` appears in some replacement text of `tbl`. */
  predicate InValues(c: char, tbl: seq<(string, string)>) {
    exists i :: 0 <= i < |tbl| && c in tbl[i].1
  }

  /** Replace-all with every entry of `tbl`, one entry after the other, in
      table order. */
  function ApplyTable(s: string, tbl: seq<(string, string)>): (r: string)
    requires KeysNonEmpty(tbl)
    ensures forall c :: c in r ==> c in s || InValues(c, tbl)
    decreases |tbl|
  {
    if |tbl| == 0 then s
    else
      var r := ApplyTable(ReplaceAll(s, tbl[0].0, tbl[0].1), tbl[1..]);
      assert forall c :: InValues(c, tbl[1..]) ==> InValues(c, tbl) by {
        forall c | InValues(c, tbl[1..]) ensures InValues(c, tbl) {
          var i :| 0 <= i < |tbl[1..]| && c in tbl[1..][i].1;
          assert tbl[i + 1] == tbl[1..][i];
        }
      }
      r
  }

  lemma TablesWellFormed()
    ensures KeysNonEmpty(CityMapping) && KeysNonEmpty(CommentReplacements)
    ensures !InValues('\n', CityMapping)
    ensures !InValues('\n', CommentReplacements) && !InValues('\r', CommentReplacements)
  {
    CityValuesOneLine();
    CommentValuesOneLine();
  }

  lemma CityValuesOneLine()
    ensures !InValues('\n', CityMapping)
  {
  }

  /** Split into small pieces: each literal costs the solver a little. */
  lemma CommentValuesOneLine()
    ensures !InValues('\n', CommentReplacements) && !InValues('\r', CommentReplacements)
  {
    CommentValuesOneLine0();
    CommentValuesOneLine1();
    CommentValuesOneLine2();
    CommentValuesOneLine3();
    CommentValuesOneLine4();
    CommentValuesOneLine5();
    CommentValuesOneLine6();
    CommentValuesOneLine7();
    CommentValuesOneLine8();
    CommentValuesOneLine9();
    CommentValuesOneLine10();
    assert forall i :: 0 <= i < |CommentReplacements| ==> NoLineBreak(CommentReplacements[i].1);
  }

  // CommentValuesOneLine0 to CommentValuesOneLine10 each cover one slice of
  // the replacement table, so that every proof stays small for the solver.

  lemma CommentValuesOneLine0()
    ensures forall i :: 0 <= i < 1 ==> NoLineBreak(CommentReplacements[i].1)
  {
    NoLineBreakByIndex(CommentReplacements[0].1);
  }

  lemma CommentValuesOneLine1()
    ensures forall i :: 1 <= i < 2 ==> NoLineBreak(CommentReplacements[i].1)
  {
    NoLineBreakByIndex(CommentReplacements[1].1);
  }

  lemma CommentValuesOneLine2()
    ensures forall i :: 2 <= i < 4 ==> NoLineBreak(CommentReplacements[i].1)
  {
    NoLineBreakByIndex(CommentReplacements[2].1);
    NoLineBreakByIndex(CommentReplacements[3].1);
  }

  lemma CommentValuesOneLine3()
    ensures forall i :: 4 <= i < 6 ==> NoLineBreak(CommentReplacements[i].1)
  {
    NoLineBreakByIndex(CommentReplacements[4].1);
    NoLineBreakByIndex(CommentReplacements[5].1);
  }

  lemma CommentValuesOneLine4()
    ensures forall i :: 6 <= i < 8 ==> NoLineBreak(CommentReplacements[i].1)
  {
    NoLineBreakByIndex(CommentReplacements[6].1);
    NoLineBreakByIndex(CommentReplacements[7].1);
  }

  lemma CommentValuesOneLine5()
    ensures forall i :: 8 <= i < 10 ==> NoLineBreak(CommentReplacements[i].1)
  {
    NoLineBreakByIndex(CommentReplacements[8].1);
    NoLineBreakByIndex(CommentReplacements[9].1);
  }

  lemma CommentValuesOneLine6()
    ensures forall i :: 10 <= i < 12 ==> NoLineBreak(CommentReplacements[i].1)
  {
    NoLineBreakByIndex(CommentReplacements[10].1);
    NoLineBreakByIndex(CommentReplacements[11].1);
  }

  lemma CommentValuesOneLine7()
    ensures forall i :: 12 <= i < 15 ==> NoLineBreak(CommentReplacements[i].1)
  {
    NoLineBreakByIndex(CommentReplacements[12].1);
    NoLineBreakByIndex(CommentReplacements[13].1);
    NoLineBreakByIndex(CommentReplacements[14].1);
  }

  lemma CommentValuesOneLine8()
    ensures forall i :: 15 <= i < 18 ==> NoLineBreak(CommentReplacements[i].1)
  {
    NoLineBreakByIndex(CommentReplacements[15].1);
    NoLineBreakByIndex(CommentReplacements[16].1);
    NoLineBreakByIndex(CommentReplacements[17].1);
  }

  lemma CommentValuesOneLine9()
    ensures forall i :: 18 <= i < 21 ==> NoLineBreak(CommentReplacements[i].1)
  {
    NoLineBreakByIndex(CommentReplacements[18].1);
    NoLineBreakByIndex(CommentReplacements[19].1);
    NoLineBreakByIndex(CommentReplacements[20].1);
  }

  lemma CommentValuesOneLine10()
    ensures forall i :: 21 <= i < 24 ==> NoLineBreak(CommentReplacements[i].1)
  {
    NoLineBreakByIndex(CommentReplacements[21].1);
    NoLineBreakByIndex(CommentReplacements[22].1);
    NoLineBreakByIndex(CommentReplacements[23].1);
  }

  // ---------------------------------------------------------------------
  // Header and separator patterns of the comment cleaner

  const Ws: Tok := Many(Space)
  const SlashSep: seq<Tok> := [Ws, Lit('/'), Ws]

  // `\s*\*\s*\d*\s*Building\s*/\s*Suite\s*/\s*Charac\.\s*/\s*Note:\s*`
  const StarredNoteHeader: Pattern :=
    Pattern([Ws], "*", [Ws, Many(Digit), Ws] + Lits("Building") + SlashSep + Lits("Suite")
      + SlashSep + Lits("Charac.") + SlashSep + Lits("Note:") + [Ws], true)

  // `\s*Building\s*/\s*Suite\s*/\s*Charac\.\s*/\s*Note:\s*`
  const NoteHeader: Pattern :=
    Pattern([Ws], "Building", SlashSep + Lits("Suite") + SlashSep + Lits("Charac.")
      + SlashSep + Lits("Note:") + [Ws], true)

  // `\s*Building\s*/\s*Suite\s*/\s*Charac\.\s*/\s*`
  const CharacHeader: Pattern :=
    Pattern([Ws], "Building", SlashSep + Lits("Suite") + SlashSep + Lits("Charac.") + SlashSep, true)

  // `\s*Initial Address Notes\s*/\s*`
  const AddressNotesHeader: Pattern :=
    Pattern([Ws], "Initial Address Notes", SlashSep, true)

  // ` Yes / `
  const YesToken: Pattern := Pattern([], " Yes / ", [], true)

  // `\s*/\s*/\s*`
  const DoubleSlash: Pattern := Pattern([Ws], "/", [Ws, Lit('/'), Ws], false)

  // ` / / / `
  const TripleSlash: Pattern := Pattern([], " / / / ", [], false)

  // `\s*\|\s*`
  const Pipe: Pattern := Pattern([Ws], "|", [Ws], false)

  /** The header patterns of app.py:47-50, in order; each is removed. */
  const HeaderPatterns: seq<Pattern> := [StarredNoteHeader, NoteHeader, CharacHeader, AddressNotesHeader]

  /** Removes the repeated boilerplate headers (app.py:47-51). */
  function StripHeaders(t: string): (r: string)
    ensures NoLineBreak(t) ==> NoLineBreak(r)
  {
    var u := SubEach(HeaderPatterns, t, "");
    Sub(YesToken, u, " ")
  }

  /** Tags a leading number: when the trimmed text starts with digits
      followed by whitespace, they are rewritten as `Nb: <digits> `; the
      text is otherwise returned as it came in (app.py:54-57). */
  function NbPrefix(t: string): (r: string)
    ensures NoLineBreak(t) ==> NoLineBreak(r)
    ensures r == t || (|r| > 4 && StartsWith(r, "Nb: "))
    ensures NumberThenBlank(Strip(t)) ==> TaggedFrom(Strip(t), r)
    ensures !NumberThenBlank(Strip(t)) ==> r == t
  {
    var u := Strip(t);
    var d := Span(u, 0, Digit);
    if 0 < d < |u| && IsSpace(u[d]) then
      assert NoLineBreak(t) ==> NoLineBreak(u);
      Tag(u, d)
    else
      NotNumbered(u);
      t
  }

  /** The rewrite of app.py:57 once the number is known to end at `d`. */
  function Tag(u: string, d: nat): (v: string)
    requires 0 < d < |u| && d == Span(u, 0, Digit) && IsSpace(u[d])
    requires EndsNonBlank(u)
    ensures |v| > 4 && StartsWith(v, "Nb: ")
    ensures NoLineBreak(u) ==> NoLineBreak(v)
    ensures NumberThenBlank(u) && TaggedFrom(u, v)
  {
    var w := Span(u, d, Space);
    TaggedNumber(u, d, w);
    TaggedWitness(u, d, d + w);
    "Nb: " + u[..d] + " " + u[d + w..]
  }

  /** `^(\d+)\s+` matches the start of `u`: digits, then a blank. */
  predicate NumberThenBlank(u: string) {
    exists d :: 0 < d < |u| && IsSpace(u[d]) && forall i :: 0 <= i < d ==> IsDigit(u[i])
  }

  /** `v` is `u` with its leading number `n` and the blanks after it
      rewritten as `Nb: n `; the rest of `u` follows unchanged. */
  predicate TaggedFrom(u: string, v: string) {
    exists d, e :: 0 < d < e < |u| && AllIn(u[..d], Digit) && AllIn(u[d..e], Space) && !IsSpace(u[e])
                   && v == "Nb: " + u[..d] + " " + u[e..]
  }

  /** The digit run at the start and the blanks after it witness both
      predicates. */
  lemma TaggedWitness(u: string, d: nat, e: nat)
    requires 0 < d < e < |u| && e == d + Span(u, d, Space)
    requires d == Span(u, 0, Digit)
    ensures NumberThenBlank(u) && TaggedFrom(u, "Nb: " + u[..d] + " " + u[e..])
  {
    assert AllIn(u[..d], Digit);
    assert AllIn(u[d..e], Space);
  }

  /** Where the digit run at the start is not followed by a blank, `^\d+\s+`
      cannot match: a shorter run would end on a digit. */
  lemma NotNumbered(u: string)
    requires !(0 < Span(u, 0, Digit) < |u| && IsSpace(u[Span(u, 0, Digit)]))
    ensures !NumberThenBlank(u)
  {
  }

  /** After a leading number and its whitespace run something non-blank
      remains, so the final strip in the tagging step leaves the tag alone;
      the tagged text draws its characters from the tag and the input. */
  lemma TaggedNumber(u: string, d: nat, w: nat)
    requires d < |u| && EndsNonBlank(u)
    requires w == Span(u, d, Space)
    ensures d + w < |u|
    ensures var v := "Nb: " + u[..d] + " " + u[d + w..];
      Strip(v) == v && StartsWith(v, "Nb: ") && (NoLineBreak(u) ==> NoLineBreak(v))
  {
    SpanStopsBeforeEnd(u, d);
    TagKeepsEnds(u, d + w, "Nb: " + u[..d] + " ");
    if NoLineBreak(u) {
      NoLineBreakSlices(u, d, d + w);
    }
  }

  /** A whitespace run cannot reach the end of a text that ends non-blank. */
  lemma SpanStopsBeforeEnd(u: string, d: nat)
    requires d < |u| && EndsNonBlank(u)
    ensures d + Span(u, d, Space) < |u|
  {
  }

  /** The tag starts with `N` and ends where the input did. */
  lemma TagKeepsEnds(u: string, e: nat, head: string)
    requires e < |u| && EndsNonBlank(u)
    requires StartsWith(head, "Nb: ")
    ensures Strip(head + u[e..]) == head + u[e..] && StartsWith(head + u[e..], "Nb: ")
  {
    var v := head + u[e..];
    assert v[|v| - 1] == u[|u| - 1];
    assert v[..4] == head[..4];
    StripUnchanged(v);
  }

  lemma NoLineBreakSlices(u: string, i: nat, j: nat)
    requires NoLineBreak(u) && i <= j <= |u|
    ensures NoLineBreak("Nb: " + u[..i] + " " + u[j..])
  {
    assert NoLineBreak(u[..i]) by {
      assert forall c :: c in u[..i] ==> c in u;
    }
    assert NoLineBreak(u[j..]) by {
      assert forall c :: c in u[j..] ==> c in u;
    }
  }

  /** A string whose ends are not whitespace is its own strip. */
  lemma StripUnchanged(s: string)
    requires Trimmed(s)
    ensures Strip(s) == s
  {
  }

  /** Line breaks become ` / ` and the ends are trimmed (app.py:44). */
  function Unbreak(text: string): (r: string)
    ensures NoLineBreak(r)
    ensures NoLineBreak(text) ==> r == Strip(text)
  {
    assert NoLineBreak(text) ==> ReplaceAll(ReplaceAll(text, "\n", " / "), "\r", " / ") == text by {
      if NoLineBreak(text) {
        ReplaceAbsent(text, '\n', " / ");
        ReplaceAbsent(text, '\r', " / ");
      }
    }
    var a := ReplaceAll(text, "\n", " / ");
    var b := ReplaceAll(a, "\r", " / ");
    assert '\n' !in a;
    assert NoLineBreak(b);
    Strip(b)
  }

  /** Two lines joined by `\n` or by `\r` become one, with ` / ` in place
      of the break. */
  lemma UnbreakJoins(a: string, b: string)
    requires NoLineBreak(a) && NoLineBreak(b)
    ensures Unbreak(a + "\n" + b) == Strip(a + " / " + b)
    ensures Unbreak(a + "\r" + b) == Strip(a + " / " + b)
  {
    ReplaceOnce(a, '\n', b, " / ");
    assert NoLineBreak(a + " / " + b);
    ReplaceAbsent(a + " / " + b, '\r', " / ");
    assert '\n' !in a + "\r" + b;
    ReplaceAbsent(a + "\r" + b, '\n', " / ");
    ReplaceOnce(a, '\r', b, " / ");
  }

  /** Abbreviations expanded in table order (app.py:60-61). */
  function ExpandAbbreviations(t: string): (r: string)
    ensures NoLineBreak(t) ==> NoLineBreak(r)
  {
    TablesWellFormed();
    ApplyTable(t, CommentReplacements)
  }

  /** Separator clean-up (app.py:64-66): doubled slashes and pipes become ` / `. */
  function CollapseSeparators(t: string): (r: string)
    ensures NoLineBreak(t) ==> NoLineBreak(r)
  {
    assert NoLineBreak(" / ");
    SubEach([DoubleSlash, TripleSlash, Pipe], t, " / ")
  }

  /** Final trim of whitespace, then slashes, then whitespace (app.py:68). */
  function TrimEnds(t: string): (r: string)
    ensures NoLineBreak(t) ==> NoLineBreak(r)
    ensures Trimmed(r)
    ensures exists i :: OccursAt(t, r, i)
    ensures Trimmed(t) && t != "" && !Slash.Has(t[0]) && !Slash.Has(t[|t| - 1]) ==> r == t
  {
    TrimEndsPiece(t);
    TrimEndsKeeps(t);
    Strip(Trim(Strip(t), Slash))
  }

  /** The three trims keep a contiguous piece of the text. */
  lemma TrimEndsPiece(t: string)
    ensures exists i :: OccursAt(t, Strip(Trim(Strip(t), Slash)), i)
  {
    var s1 := Strip(t);
    var s2 := Trim(s1, Slash);
    StripParts(t);
    TrimParts(s1, Slash);
    StripParts(s2);
    PieceOfPieceOfPiece(t, s1, StripStart(t), s2, TrimStart(s1, Slash), Strip(s2), StripStart(s2));
  }

  /** Three nested pieces: the innermost is a piece of the outermost. */
  lemma PieceOfPieceOfPiece(s: string, x: string, i: nat, y: string, j: nat, z: string, k: nat)
    requires OccursAt(s, x, i) && OccursAt(x, y, j) && OccursAt(y, z, k)
    ensures OccursAt(s, z, i + j + k)
  {
    OccursInOccurs(s, x, i, y, j);
    OccursInOccurs(s, y, i + j, z, k);
  }

  /** Text already free of blanks and slashes at both ends is left alone. */
  lemma TrimEndsKeeps(t: string)
    ensures Trimmed(t) && t != "" && !Slash.Has(t[0]) && !Slash.Has(t[|t| - 1]) ==>
      Strip(Trim(Strip(t), Slash)) == t
  {
    if Trimmed(t) && t != "" && !Slash.Has(t[0]) && !Slash.Has(t[|t| - 1]) {
      StripUnchanged(t);
      KeepsFirst(t, Slash);
      KeepsLast(t, Slash);
    }
  }

  /** `clean_comment_text` (app.py:41-68): line breaks become ` / `, headers
      are removed, a leading number is tagged, abbreviations are expanded in
      table order, separators are collapsed, and the ends are trimmed of
      whitespace and slashes. */
  function CleanCommentText(text: string): (r: string)
    ensures text == "" ==> r == ""
    ensures NoLineBreak(r)
    ensures Trimmed(r)
  {
    if text == "" then ""
    else TrimEnds(CollapseSeparators(ExpandAbbreviations(NbPrefix(StripHeaders(Unbreak(text))))))
  }

  // ---------------------------------------------------------------------
  // Addresses

  /** An address split into its first line and the notes on the lines
      after it. */
  datatype Address = Address(base: string, extra: string)

  /** City-code expansion (app.py:73-74). */
  function ExpandCities(s: string): string {
    TablesWellFormed();
    ApplyTable(s, CityMapping)
  }

  /** `parse_address_with_city` (app.py:70-80). */
  function ParseAddressWithCity(addr: string): (r: Address)
    ensures addr == "" ==> r == Address("", "")
    ensures '\n' !in r.base
    ensures Trimmed(r.base)
  {
    if addr == "" then Address(addr, "")
    else
      var lines := Split(ExpandCities(addr), '\n');
      Address(Strip(lines[0]), if |lines| > 1 then Strip(Join(lines[1..], " ")) else "")
  }

  /** Replace-all never matches a break-free pattern across a line break. */
  lemma {:induction false} ReplaceAcrossBreak(a: string, b: string, pat: string, rep: string)
    requires |pat| > 0 && '\n' !in pat
    ensures ReplaceAll(a + "\n" + b, pat, rep) == ReplaceAll(a, pat, rep) + "\n" + ReplaceAll(b, pat, rep)
    decreases |a|
  {
    MatchBeforeBreak(a, b, pat);
    if |a| == 0 {
      ReplaceFromBreak(b, pat, rep);
    } else if StartsWith(a, pat) {
      ReplaceAcrossBreakMatch(a, b, pat, rep);
    } else {
      ReplaceAcrossBreakSkip(a, b, pat, rep);
    }
  }

  /** A break-free pattern starts the joined text exactly when it starts the
      first line. */
  lemma MatchBeforeBreak(a: string, b: string, pat: string)
    requires '\n' !in pat
    ensures StartsWith(a + "\n" + b, pat) <==> StartsWith(a, pat)
  {
    var s := a + "\n" + b;
    assert |a| < |s| && s[|a|] == '\n';
    if StartsWith(s, pat) {
      assert forall k :: 0 <= k < |pat| ==> pat[k] == s[k];
      assert a[..|pat|] == s[..|pat|];
    }
    if StartsWith(a, pat) {
      assert a[..|pat|] == s[..|pat|];
    }
  }

  /** A break-free pattern cannot start at the break. */
  lemma ReplaceFromBreak(b: string, pat: string, rep: string)
    requires |pat| > 0 && '\n' !in pat
    ensures ReplaceAll("\n" + b, pat, rep) == "\n" + ReplaceAll(b, pat, rep)
  {
    var s := "\n" + b;
    assert s[0] == '\n' && s[1..] == b;
    assert !StartsWith(s, pat) by {
      assert |pat| <= |s| ==> s[..|pat|][0] == '\n';
    }
    if |s| >= |pat| {
      ReplaceSkipsOne(s, pat, rep);
    }
  }

  lemma {:induction false} ReplaceAcrossBreakMatch(a: string, b: string, pat: string, rep: string)
    requires |pat| > 0 && '\n' !in pat && StartsWith(a, pat)
    ensures ReplaceAll(a + "\n" + b, pat, rep) == ReplaceAll(a, pat, rep) + "\n" + ReplaceAll(b, pat, rep)
    decreases |a|, 0
  {
    var s := a + "\n" + b;
    assert s[..|pat|] == pat;
    assert s[|pat|..] == a[|pat|..] + "\n" + b;
    ReplaceAcrossBreak(a[|pat|..], b, pat, rep);
  }

  lemma {:induction false} ReplaceAcrossBreakSkip(a: string, b: string, pat: string, rep: string)
    requires |pat| > 0 && '\n' !in pat && |a| > 0
    requires !StartsWith(a, pat) && !StartsWith(a + "\n" + b, pat)
    ensures ReplaceAll(a + "\n" + b, pat, rep) == ReplaceAll(a, pat, rep) + "\n" + ReplaceAll(b, pat, rep)
    decreases |a|, 0
  {
    var s := a + "\n" + b;
    assert s[1..] == a[1..] + "\n" + b;
    ReplaceAcrossBreak(a[1..], b, pat, rep);
    ReplaceSkipsOne(s, pat, rep);
    ReplaceSkipsOne(a, pat, rep);
    assert s[0] == a[0];
    var x, y := ReplaceAll(a[1..], pat, rep), ReplaceAll(b, pat, rep);
    assert [a[0]] + (x + "\n" + y) == [a[0]] + x + "\n" + y;
  }

  /** Where the pattern does not start, replace-all keeps the first character. */
  lemma ReplaceSkipsOne(s: string, pat: string, rep: string)
    requires |pat| > 0 && |s| > 0 && !StartsWith(s, pat)
    ensures ReplaceAll(s, pat, rep) == [s[0]] + ReplaceAll(s[1..], pat, rep)
  {
  }

  /** Table expansion works line by line. */
  lemma {:induction false} ApplyTableAcrossBreak(a: string, b: string, tbl: seq<(string, string)>)
    requires KeysNonEmpty(tbl)
    requires forall i :: 0 <= i < |tbl| ==> '\n' !in tbl[i].0
    ensures ApplyTable(a + "\n" + b, tbl) == ApplyTable(a, tbl) + "\n" + ApplyTable(b, tbl)
    decreases |tbl|
  {
    if |tbl| > 0 {
      ReplaceAcrossBreak(a, b, tbl[0].0, tbl[0].1);
      ApplyTableAcrossBreak(ReplaceAll(a, tbl[0].0, tbl[0].1), ReplaceAll(b, tbl[0].0, tbl[0].1), tbl[1..]);
    }
  }

  /** Address on several lines: the base is the expanded first line, trimmed,
      and the notes are the expanded later lines joined by spaces, trimmed. */
  lemma AddressLines(a: string, b: string)
    requires '\n' !in a
    ensures ParseAddressWithCity(a + "\n" + b)
         == Address(Strip(ExpandCities(a)), Strip(ReplaceAll(ExpandCities(b), "\n", " ")))
  {
    TablesWellFormed();
    ApplyTableAcrossBreak(a, b, CityMapping);
    var ea := ExpandCities(a);
    var eb := ExpandCities(b);
    assert '\n' !in ea;
    SplitAtFirst(ea, '\n', eb);
    var lines := Split(ea + "\n" + eb, '\n');
    assert lines[1..] == Split(eb, '\n');
    JoinSplit(eb, '\n', " ");
  }

  /** Address on one line: it is all base, with no notes. */
  lemma AddressSingleLine(a: string)
    requires '\n' !in a
    ensures ParseAddressWithCity(a) == Address(Strip(ExpandCities(a)), "")
  {
    TablesWellFormed();
    if a != "" {
      assert '\n' !in ExpandCities(a);
      SplitNone(ExpandCities(a), '\n');
    }
  }
}

=== FILE: pairing.dfy ===
/** The per-row step of the trip-pairing engine (`process_table_row`,
    app.py:123-249): pickups wait in a queue until a dropoff row claims one
    and turns it into a trip. */
module Pairing {
  import opened Wrappers
  import opened Strings
  import opened Normalize
  import opened Rows

  /** A pickup waiting for its dropoff (app.py:174-181). */
  datatype Pickup = Pickup(runNumber: string, time: string, name: string, id: string,
                           address: string, comments: string)

  /** The most recent dropoff row's address, time and run (app.py:270). */
  datatype LastDropoff = LastDropoff(address: string, time: string, runNumber: string)

  /** One output record with the ten columns of app.py:339-342. */
  datatype Trip = Trip(date: string, runNumber: string, pickUpTime: string, customerName: string,
                       customerId: string, pickupAddress: string, dropoffAddress: string,
                       dropOffTime: string, comments: string, mileage: string)

  /** The engine state: pending pickups in queue order, the last-dropoff
      record, and the trips emitted so far. */
  datatype Engine = Engine(queue: seq<Pickup>, last: LastDropoff, trips: seq<Trip>)

  const Fresh: Engine := Engine([], LastDropoff("", "", ""), [])

  /** The page-level values every row of a page is processed with. */
  datatype PageContext = PageContext(date: string, runNumber: string, mileage: string)

  /** What a step did. `process_table_row` returns `True` exactly for
      `Enqueued` and `Emitted`. */
  datatype Outcome = Refused(why: Reject) | Enqueued | Emitted | Deferred | Discarded | Unmatched

  datatype StepResult = StepResult(engine: Engine, outcome: Outcome)

  // ---------------------------------------------------------------------
  // Comments

  /** `.strip().lstrip('/')` (app.py:171, 219, 220). */
  function Tidy(s: string): (r: string)
    ensures forall c :: c in r ==> c in s
  {
    DropLeading(Strip(s), Slash)
  }

  /** Starts with neither a blank nor a slash. */
  predicate StartsPlain(s: string) {
    |s| > 0 && !IsSpace(s[0]) && s[0] != '/'
  }

  /** Text that starts with neither a blank nor a slash and ends with no blank
      is left alone by `Tidy`. */
  lemma TidyUnchanged(s: string)
    requires StartsPlain(s) && EndsNonBlank(s)
    ensures Tidy(s) == s
  {
    StripUnchanged(s);
  }

  /** `Tidy` keeps a head that starts with neither a blank nor a slash, when a
      non-blank follows somewhere after it. */
  lemma TidyKeepsHead(s: string, head: string, i: nat)
    requires StartsPlain(head) && StartsWith(s, head)
    requires |head| - 1 <= i < |s| && !IsSpace(s[i])
    ensures StartsWith(Tidy(s), head)
  {
    assert s[0] == head[0];
    KeepsFirst(s, Space);
    var t := DropTrailing(s, Space);
    TrailingStopsAt(s, Space, i);
    assert t[0] == s[0];
    KeepsFirst(t, Slash);
    assert Strip(s) == t;
    assert t[..|head|] == s[..|head|];
  }

  const PickupTag: string := "PU Com: "
  const DropoffTag: string := "DO Com:"

  /** The pickup comment (app.py:171). With address notes that end
      non-blank it is the assembled text itself; with none, the blank after
      the notes label is stripped. */
  function PickupComment(comments: string, addressNotes: string): (r: string)
    ensures StartsWith(r, PickupTag)
    ensures EndsNonBlank(addressNotes) ==>
      r == PickupTag + comments + " / Initial Address Notes: " + addressNotes
    ensures addressNotes == "" ==> r == PickupTag + comments + " / Initial Address Notes:"
  {
    PickupKeepsTag(comments, addressNotes);
    PickupEnds(comments, addressNotes);
    Tidy(PickupTag + comments + " / Initial Address Notes: " + addressNotes)
  }

  /** The pickup tag survives `Tidy`: a `/` follows the comments. */
  lemma PickupKeepsTag(comments: string, notes: string)
    ensures StartsWith(Tidy(PickupTag + comments + " / Initial Address Notes: " + notes), PickupTag)
  {
    var s := PickupTag + comments + " / Initial Address Notes: " + notes;
    assert s[|PickupTag| + |comments| + 1] == '/';
    assert s[..|PickupTag|] == PickupTag;
    TidyKeepsHead(s, PickupTag, |PickupTag| + |comments| + 1);
  }

  /** How `Tidy` treats the end of the pickup text: notes ending non-blank
      are kept as they are; with no notes the blank after the label goes. */
  lemma PickupEnds(comments: string, notes: string)
    ensures EndsNonBlank(notes) ==>
      Tidy(PickupTag + comments + " / Initial Address Notes: " + notes) ==
      PickupTag + comments + " / Initial Address Notes: " + notes
    ensures notes == "" ==>
      Tidy(PickupTag + comments + " / Initial Address Notes: " + notes) ==
      PickupTag + comments + " / Initial Address Notes:"
  {
    var s := PickupTag + comments + " / Initial Address Notes: " + notes;
    if EndsNonBlank(notes) {
      assert s[0] == 'P';
      assert s[|s| - 1] == notes[|notes| - 1];
      TidyUnchanged(s);
    }
    if notes == "" {
      assert s == PickupTag + comments + " / Initial Address Notes: ";
      PickupNoNotes(comments);
    }
  }

  /** Without address notes `Tidy` drops only the blank after the label. */
  lemma PickupNoNotes(comments: string)
    ensures Tidy(PickupTag + comments + " / Initial Address Notes: ") ==
      PickupTag + comments + " / Initial Address Notes:"
  {
    var x := PickupTag + comments + " / Initial Address Notes:";
    assert PickupTag + comments + " / Initial Address Notes: " == x + " ";
    assert x[0] == 'P' && x[|x| - 1] == ':';
    TidyDropsBlank(x);
  }

  /** The dropoff comment (app.py:219): it keeps its tag and ends non-blank.
      With comments that end non-blank it is the tag, a blank and the
      comments; with none, the tag alone. */
  function DropoffComment(comments: string): (r: string)
    ensures StartsWith(r, DropoffTag)
    ensures EndsNonBlank(r)
    ensures EndsNonBlank(comments) ==> r == DropoffTag + " " + comments
    ensures comments == "" ==> r == DropoffTag
  {
    var s := DropoffTag + " " + comments;
    assert s[..|DropoffTag|] == DropoffTag;
    TidyKeepsHead(s, DropoffTag, |DropoffTag| - 1);
    assert EndsNonBlank(comments) ==> Tidy(s) == s by {
      if EndsNonBlank(comments) {
        assert s[0] == 'D' && s[|s| - 1] == comments[|comments| - 1];
        TidyUnchanged(s);
      }
    }
    assert comments == "" ==> Tidy(s) == DropoffTag by {
      if comments == "" {
        assert s == DropoffTag + " ";
        TidyDropsBlank(DropoffTag);
      }
    }
    Tidy(s)
  }

  /** A single trailing blank after otherwise untouched text is all that
      `Tidy` removes. */
  lemma TidyDropsBlank(x: string)
    requires StartsPlain(x) && EndsNonBlank(x)
    ensures Tidy(x + " ") == x
  {
    var s := x + " ";
    assert s[0] == x[0] && s[..|s| - 1] == x;
    KeepsFirst(s, Space);
    KeepsLast(x, Space);
    assert DropTrailing(s, Space) == x;
    assert Strip(s) == x;
    KeepsFirst(x, Slash);
  }

  /** Every queued pickup's comment starts with the pickup tag. */
  predicate Tagged(q: seq<Pickup>) {
    forall i :: 0 <= i < |q| ==> StartsWith(q[i].comments, PickupTag)
  }

  /** The trip comment (app.py:220): for a tagged pickup comment it is the
      pickup comment, ` / `, and the dropoff comment, exactly. */
  function TripComment(pickupComments: string, dropComments: string): (r: string)
    ensures StartsWith(pickupComments, PickupTag) ==>
      r == pickupComments + " / " + DropoffComment(dropComments)
  {
    var d := DropoffComment(dropComments);
    var s := pickupComments + " / " + d;
    if StartsWith(pickupComments, PickupTag) then
      JoinedUntouched(pickupComments, d);
      Tidy(s)
    else Tidy(s)
  }

  lemma JoinedUntouched(pc: string, d: string)
    requires StartsWith(pc, PickupTag)
    requires EndsNonBlank(d)
    ensures Tidy(pc + " / " + d) == pc + " / " + d
  {
    var s := pc + " / " + d;
    assert pc[0] == PickupTag[0];
    assert s[0] == 'P';
    assert s[|s| - 1] == d[|d| - 1];
    TidyUnchanged(s);
  }

  // ---------------------------------------------------------------------
  // Matching

  /** A queued pickup answers a dropoff row with this ID and name: the same
      non-empty ID, or the same non-empty name (app.py:206). */
  predicate IsMatch(p: Pickup, id: string, name: string) {
    (id != "" && p.id == id) || (name != "" && p.name == name)
  }

  /** The queue position a dropoff claims (app.py:201-214): the first entry
      that matches by ID or name, else the head; none for an empty queue. */
  function MatchIndex(q: seq<Pickup>, id: string, name: string): (r: Option<nat>)
    ensures r.None? <==> |q| == 0
    ensures r.Some? ==> r.value < |q|
    ensures (exists j :: 0 <= j < |q| && IsMatch(q[j], id, name)) ==>
      r.Some? && IsMatch(q[r.value], id, name) && forall j :: 0 <= j < r.value ==> !IsMatch(q[j], id, name)
    ensures (forall j :: 0 <= j < |q| ==> !IsMatch(q[j], id, name)) && |q| > 0 ==> r == Some(0)
  {
    var p := (j: nat) => j < |q| && IsMatch(q[j], id, name);
    var scan := if id != "" || name != "" then FirstWhere(|q|, 0, p) else None;
    assert forall j :: 0 <= j < |q| && (scan.None? || j < scan.value) ==> !IsMatch(q[j], id, name) by {
      forall j | 0 <= j < |q| && (scan.None? || j < scan.value) ensures !IsMatch(q[j], id, name) {
        if id != "" || name != "" {
          assert !p(j);
        }
      }
    }
    if scan.Some? then scan else if |q| > 0 then Some(0) else None
  }

  /** `list.remove` of the entry at `k`: later entries move up by one. */
  function RemoveAt(q: seq<Pickup>, k: nat): (r: seq<Pickup>)
    requires k < |q|
    ensures |r| == |q| - 1
    ensures forall i :: 0 <= i < k ==> r[i] == q[i]
    ensures forall i :: k <= i < |r| ==> r[i] == q[i + 1]
    ensures multiset(r) + multiset{q[k]} == multiset(q)
  {
    assert q == q[..k] + [q[k]] + q[k + 1..];
    q[..k] + q[k + 1..]
  }

  // ---------------------------------------------------------------------
  // Temporal check

  /** The dropoff lies more than five minutes before the pickup, both times
      parsing as `%H:%M` (app.py:223-231); a time that fails to parse skips
      the check. */
  predicate TooEarly(pickupTime: string, dropoffTime: string) {
    var p := ParseClock(pickupTime);
    var d := ParseClock(dropoffTime);
    p.Some? && d.Some? && d.value < p.value && p.value - d.value > 300
  }

  /** In clock terms: a pair of valid `H:MM`/`HH:MM` times is refused exactly
      when the dropoff minute of the day is more than five minutes before
      the pickup's, and a time that does not parse never refuses the pair. */
  lemma TooEarlyClock(pickupTime: string, dropoffTime: string)
    ensures ParseClock(pickupTime).None? || ParseClock(dropoffTime).None? ==> !TooEarly(pickupTime, dropoffTime)
    ensures IsClockText(pickupTime) && IsClockText(dropoffTime)
            && ParseClock(pickupTime).Some? && ParseClock(dropoffTime).Some? ==>
      (TooEarly(pickupTime, dropoffTime) <==>
         60 * ClockHour(dropoffTime) + ClockMinute(dropoffTime) + 5 < 60 * ClockHour(pickupTime) + ClockMinute(pickupTime))
  {
  }

  // ---------------------------------------------------------------------
  // The step

  /** The queue entry an accepted pickup row adds (app.py:167-181). */
  function NewPickup(stop: Stop, ctx: PageContext): (p: Pickup)
    ensures StartsWith(p.comments, PickupTag)
    ensures p.comments == PickupComment(stop.comments, ParseAddressWithCity(stop.address).extra)
    ensures p.runNumber == ctx.runNumber && p.time == stop.time && p.name == stop.name && p.id == stop.id
    ensures p.address == ParseAddressWithCity(stop.address).base
  {
    var a := ParseAddressWithCity(stop.address);
    Pickup(ctx.runNumber, stop.time, stop.name, stop.id, a.base, PickupComment(stop.comments, a.extra))
  }

  /** The dropoff address: the stored one when the row's address cell is
      empty, else the normalised first line of the cell (app.py:191-195). */
  function DropoffAddress(last: LastDropoff, stop: Stop): (r: string)
    ensures stop.address == "" ==> r == last.address
    ensures stop.address != "" ==> r == ParseAddressWithCity(stop.address).base
    ensures stop.address != "" ==> '\n' !in r && Trimmed(r)
  {
    if stop.address == "" then last.address else ParseAddressWithCity(stop.address).base
  }

  /** The trip a claimed pickup and a dropoff row make (app.py:233-244). */
  function MakeTrip(p: Pickup, address: string, stop: Stop, ctx: PageContext): (t: Trip)
    ensures t.runNumber == p.runNumber && t.pickUpTime == p.time && t.customerName == p.name
    ensures t.customerId == p.id && t.pickupAddress == p.address
    ensures t.dropoffAddress == address && t.dropOffTime == stop.time
    ensures t.date == ctx.date && t.mileage == ctx.mileage
    ensures StartsWith(p.comments, PickupTag) ==>
      t.comments == p.comments + " / " + DropoffComment(stop.comments)
  {
    Trip(ctx.date, p.runNumber, p.time, p.name, p.id, p.address, address, stop.time,
         TripComment(p.comments, stop.comments), ctx.mileage)
  }

  /** A dropoff row (app.py:185-249). */
  function OnDropoff(e: Engine, stop: Stop, ctx: PageContext): (r: StepResult)
    ensures r.engine.last.time == stop.time && r.engine.last.runNumber == ctx.runNumber
    ensures r.engine.last.address == DropoffAddress(e.last, stop)
    ensures r.outcome == Unmatched <==> |e.queue| == 0
    ensures r.outcome in {Unmatched, Discarded, Deferred, Emitted}
    ensures r.outcome == Unmatched ==> r.engine.queue == e.queue && r.engine.trips == e.trips
    ensures r.outcome != Unmatched ==>
      r == Claim(e, MatchIndex(e.queue, stop.id, stop.name).value, stop, ctx)
  {
    match MatchIndex(e.queue, stop.id, stop.name)
    case None => StepResult(Engine(e.queue, LastDropoff(DropoffAddress(e.last, stop), stop.time, ctx.runNumber), e.trips), Unmatched)
    case Some(k) => Claim(e, k, stop, ctx)
  }

  /** A dropoff row with an empty address cell inherits the address stored
      from the previous dropoff, and passes it on (app.py:191-197). */
  lemma EmptyAddressInherits(e: Engine, stop: Stop, ctx: PageContext)
    requires stop.address == ""
    ensures var r := OnDropoff(e, stop, ctx);
      && r.engine.last.address == e.last.address
      && (r.outcome == Emitted ==>
            |r.engine.trips| == |e.trips| + 1 && r.engine.trips[|e.trips|].dropoffAddress == e.last.address)
  {
  }

  /** The dropoff claims queue entry `k` (app.py:215-247): with no address
      the pickup is dropped, too early it goes back to the head, otherwise
      the pair becomes a trip. */
  function Claim(e: Engine, k: nat, stop: Stop, ctx: PageContext): (r: StepResult)
    requires k < |e.queue|
    ensures r.engine.last == LastDropoff(DropoffAddress(e.last, stop), stop.time, ctx.runNumber)
    ensures r.outcome in {Discarded, Deferred, Emitted}
    ensures var address := DropoffAddress(e.last, stop);
      && (r.outcome == Discarded <==> address == "")
      && (r.outcome == Deferred <==> address != "" && TooEarly(e.queue[k].time, stop.time))
    ensures r.outcome == Discarded ==> r.engine.queue == RemoveAt(e.queue, k) && r.engine.trips == e.trips
    ensures r.outcome == Deferred ==> r.engine.queue == [e.queue[k]] + RemoveAt(e.queue, k) && r.engine.trips == e.trips
    ensures r.outcome == Emitted ==>
      && r.engine.queue == RemoveAt(e.queue, k)
      && r.engine.trips == e.trips + [MakeTrip(e.queue[k], DropoffAddress(e.last, stop), stop, ctx)]
  {
    var address := DropoffAddress(e.last, stop);
    var last := LastDropoff(address, stop.time, ctx.runNumber);
    var p := e.queue[k];
    var rest := RemoveAt(e.queue, k);
    if address == "" then StepResult(Engine(rest, last, e.trips), Discarded)
    else if TooEarly(p.time, stop.time) then StepResult(Engine([p] + rest, last, e.trips), Deferred)
    else StepResult(Engine(rest, last, e.trips + [MakeTrip(p, address, stop, ctx)]), Emitted)
  }

  /** The engine's response to a row once parsed (app.py:125-249). */
  function Apply(e: Engine, parsed: Result<Stop, Reject>, ctx: PageContext): (r: StepResult)
    ensures r.outcome.Refused? <==> parsed.Failure?
    ensures r.outcome.Refused? ==> r.engine == e && r.outcome.why == parsed.error
    ensures r.outcome == Enqueued <==> parsed.Success? && parsed.value.kind == PickupStop
    ensures r.outcome == Enqueued ==>
      && r.engine.queue == e.queue + [NewPickup(parsed.value, ctx)]
      && r.engine.trips == e.trips && r.engine.last == e.last
    ensures parsed.Success? && parsed.value.kind == DropoffStop ==> r == OnDropoff(e, parsed.value, ctx)
  {
    match parsed
    case Failure(why) => StepResult(e, Refused(why))
    case Success(stop) =>
      if stop.kind == PickupStop then
        StepResult(Engine(e.queue + [NewPickup(stop, ctx)], e.last, e.trips), Enqueued)
      else OnDropoff(e, stop, ctx)
  }

  /** `process_table_row` (app.py:123-249): a refused row changes nothing,
      a pickup row adds one tagged entry at the queue tail, and a dropoff row
      is handled by `OnDropoff`. */
  function Step(e: Engine, row: Row, ctx: PageContext): (r: StepResult)
    ensures r.outcome.Refused? <==> Unusable(row)
    ensures r.outcome.Refused? ==> r.engine == e
    ensures r.outcome == Enqueued <==> ParseRow(row).Success? && ParseRow(row).value.kind == PickupStop
    ensures r.outcome == Enqueued ==>
      && |r.engine.queue| == |e.queue| + 1 && r.engine.queue[..|e.queue|] == e.queue
      && r.engine.trips == e.trips && r.engine.last == e.last
      && (var p := r.engine.queue[|e.queue|];
          StartsWith(p.comments, PickupTag))
    ensures r.outcome == Enqueued ==> r.engine.queue[|e.queue|] == NewPickup(ParseRow(row).value, ctx)
    ensures ParseRow(row).Success? && ParseRow(row).value.kind == DropoffStop ==>
      r == OnDropoff(e, ParseRow(row).value, ctx)
  {
    var r := Apply(e, ParseRow(row), ctx);
    assert r.outcome == Enqueued ==> (e.queue + [NewPickup(ParseRow(row).value, ctx)])[..|e.queue|] == e.queue;
    r
  }

  // ---------------------------------------------------------------------
  // Properties of one step

  /** Along the steps with outcomes `log`, from `before` to `after`, every
      pickup is accounted for: it is still queued, has become a trip, or was
      discarded; and trips are only ever appended. */
  predicate Conserved(before: Engine, after: Engine, log: seq<Outcome>) {
    && |after.queue| + |after.trips| + multiset(log)[Discarded]
       == |before.queue| + |before.trips| + multiset(log)[Enqueued]
    && before.trips <= after.trips
  }

  /** Conservation composes over consecutive runs of steps. */
  lemma ConservedChain(a: Engine, b: Engine, c: Engine, l1: seq<Outcome>, l2: seq<Outcome>)
    requires Conserved(a, b, l1) && Conserved(b, c, l2)
    ensures Conserved(a, c, l1 + l2)
  {
    assert multiset(l1 + l2) == multiset(l1) + multiset(l2);
  }

  /** Each step conserves pickups, and adds a trip exactly when it emits one. */
  lemma ApplyConserves(e: Engine, parsed: Result<Stop, Reject>, ctx: PageContext)
    ensures var r := Apply(e, parsed, ctx);
      && Conserved(e, r.engine, [r.outcome])
      && (|r.engine.trips| == |e.trips| + 1 <==> r.outcome == Emitted)
      && (r.outcome != Emitted ==> r.engine.trips == e.trips)
  {
    var r := Apply(e, parsed, ctx);
    CountOne(r.outcome);
    if parsed.Success? && parsed.value.kind == DropoffStop && r.outcome != Unmatched {
      ClaimConserves(e, MatchIndex(e.queue, parsed.value.id, parsed.value.name).value, parsed.value, ctx);
    }
  }

  /** A claimed pickup leaves the queue as a trip, is discarded, or returns
      to the queue. */
  lemma ClaimConserves(e: Engine, k: nat, stop: Stop, ctx: PageContext)
    requires k < |e.queue|
    ensures var r := Claim(e, k, stop, ctx);
      && (r.outcome == Deferred ==> |r.engine.queue| == |e.queue| && r.engine.trips == e.trips)
      && (r.outcome != Deferred ==> |r.engine.queue| + 1 == |e.queue|)
      && (r.outcome == Emitted ==> |r.engine.trips| == |e.trips| + 1 && e.trips <= r.engine.trips)
  {
  }

  /** How often a one-step log counts each outcome. */
  lemma CountOne(o: Outcome)
    ensures multiset([o])[Discarded] == if o == Discarded then 1 else 0
    ensures multiset([o])[Enqueued] == if o == Enqueued then 1 else 0
    ensures multiset([o])[Emitted] == if o == Emitted then 1 else 0
  {
    assert multiset([o]) == multiset{o};
  }

  /** A deferred pickup goes back to the head and the queue keeps the same
      entries; a claimed pickup leaves the queue exactly once. */
  lemma ApplyQueueContents(e: Engine, parsed: Result<Stop, Reject>, ctx: PageContext)
    ensures var r := Apply(e, parsed, ctx);
      && (r.outcome == Deferred ==> multiset(r.engine.queue) == multiset(e.queue))
      && (r.outcome in {Discarded, Emitted} ==>
            var k := MatchIndex(e.queue, parsed.value.id, parsed.value.name).value;
            multiset(r.engine.queue) + multiset{e.queue[k]} == multiset(e.queue))
  {
  }

  /** Every queued comment keeps its pickup tag. */
  lemma ApplyKeepsTagged(e: Engine, parsed: Result<Stop, Reject>, ctx: PageContext)
    requires Tagged(e.queue)
    ensures Tagged(Apply(e, parsed, ctx).engine.queue)
  {
    if parsed.Success? {
      var stop := parsed.value;
      if stop.kind == PickupStop {
        TaggedAppend(e.queue, NewPickup(stop, ctx));
      } else if |e.queue| > 0 {
        TaggedRemove(e.queue, MatchIndex(e.queue, stop.id, stop.name).value);
      }
    }
  }

  lemma TaggedAppend(q: seq<Pickup>, p: Pickup)
    requires Tagged(q) && StartsWith(p.comments, PickupTag)
    ensures Tagged(q + [p])
  {
    var q' := q + [p];
    forall i | 0 <= i < |q'| ensures StartsWith(q'[i].comments, PickupTag) {
      if i < |q| {
        assert q'[i] == q[i];
      }
    }
  }

  lemma TaggedRemove(q: seq<Pickup>, k: nat)
    requires Tagged(q) && k < |q|
    ensures Tagged(RemoveAt(q, k)) && Tagged([q[k]] + RemoveAt(q, k))
  {
    var rest := RemoveAt(q, k);
    forall i | 0 <= i < |rest| ensures StartsWith(rest[i].comments, PickupTag) {
      if i < k {
        assert rest[i] == q[i];
      } else {
        assert rest[i] == q[i + 1];
      }
    }
    var q' := [q[k]] + rest;
    forall i | 0 <= i < |q'| ensures StartsWith(q'[i].comments, PickupTag) {
      if i > 0 {
        assert q'[i] == rest[i - 1];
      }
    }
  }

  /** A trip emitted from a tagged queue carries both comment tags. */
  lemma EmittedComment(e: Engine, k: nat, stop: Stop, ctx: PageContext)
    requires Tagged(e.queue) && k < |e.queue|
    requires Claim(e, k, stop, ctx).outcome == Emitted
    ensures |Claim(e, k, stop, ctx).engine.trips| == |e.trips| + 1
    ensures var t := Claim(e, k, stop, ctx).engine.trips[|e.trips|];
      && StartsWith(t.comments, PickupTag)
      && Contains(t.comments, " / " + DropoffTag)
  {
    var p := e.queue[k];
    assert StartsWith(p.comments, PickupTag);
    TaggedComment(p.comments, DropoffComment(stop.comments));
  }

  lemma TaggedComment(pc: string, d: string)
    requires StartsWith(pc, PickupTag)
    requires StartsWith(d, DropoffTag)
    ensures var c := pc + " / " + d;
      && StartsWith(c, PickupTag)
      && Contains(c, " / " + DropoffTag)
  {
    var c := pc + " / " + d;
    assert c[..|PickupTag|] == pc[..|PickupTag|];
    assert c[|pc|..|pc| + 3 + |DropoffTag|] == " / " + d[..|DropoffTag|];
    assert OccursAt(c, " / " + DropoffTag, |pc|);
  }
}

=== FILE: patterns.dfy ===
/** A small regular-expression interpreter, just expressive enough for the
    fixed patterns the comment normalizer applies: sequences of literal
    characters and greedy `*` repetitions of a character class, matched with
    the same leftmost, longest-first backtracking order as Python's `re`. */
module Patterns {
  import opened Wrappers
  import opened Strings

  /** A literal character, or `cls*` (greedy). */
  datatype Tok = Lit(c: char) | Many(cls: CharClass)

  /** A non-empty literal word. */
  type Word = w: string | |w| > 0 witness "."

  /** A pattern, optionally compiled with `re.IGNORECASE`: the tokens of
      `lead`, the literal `anchor`, then the tokens of `rest`. Every pattern
      thus needs at least one character and never matches the empty text. */
  datatype Pattern = Pattern(lead: seq<Tok>, anchor: Word, rest: seq<Tok>, ignoreCase: bool) {
    function Toks(): (toks: seq<Tok>)
      ensures HasLit(toks)
    {
      var toks := lead + Lits(anchor) + rest;
      assert toks[|lead|] == Lit(anchor[0]);
      toks
    }
  }

  /** One literal token per character of `w`. */
  function Lits(w: string): (r: seq<Tok>)
    ensures |r| == |w|
    ensures forall i :: 0 <= i < |w| ==> r[i] == Lit(w[i])
  {
    if |w| == 0 then [] else [Lit(w[0])] + Lits(w[1..])
  }

  /** The pattern needs at least one character, so it never matches empty. */
  predicate HasLit(toks: seq<Tok>) {
    exists j :: 0 <= j < |toks| && toks[j].Lit?
  }

  predicate IsAsciiLetter(c: char) {
    ('a' <= c <= 'z') || ('A' <= c <= 'Z')
  }

  function AsciiLower(c: char): char {
    if 'A' <= c <= 'Z' then (c as int - 'A' as int + 'a' as int) as char else c
  }

  /** Whether input character `x` matches pattern literal `c`. Under
      `re.IGNORECASE` an ASCII letter matches both of its cases, and, as
      Python documents, `i` also matches U+0130 and U+0131, `s` matches
      U+017F and `k` matches U+212A. */
  predicate CharMatches(c: char, x: char, ignoreCase: bool) {
    if ignoreCase && IsAsciiLetter(c) then
      || AsciiLower(x) == AsciiLower(c)
      || (AsciiLower(c) == 'i' && (x == '\U{130}' || x == '\U{131}'))
      || (AsciiLower(c) == 's' && x == '\U{17F}')
      || (AsciiLower(c) == 'k' && x == '\U{212A}')
    else x == c
  }

  /** The end of the first match of `toks` anchored at `i`, trying the
      longest repetition first. */
  function MatchAt(toks: seq<Tok>, ic: bool, s: string, i: nat): (r: Option<nat>)
    requires i <= |s|
    ensures r.Some? ==> i <= r.value <= |s|
    ensures r.Some? && HasLit(toks) ==> i < r.value
    decreases |toks|, 0, 0
  {
    if |toks| == 0 then Some(i)
    else match toks[0]
      case Lit(c) =>
        if i < |s| && CharMatches(c, s[i], ic) then MatchAt(toks[1..], ic, s, i + 1) else None
      case Many(cls) =>
        assert HasLit(toks) ==> HasLit(toks[1..]) by {
          if HasLit(toks) {
            var j :| 0 <= j < |toks| && toks[j].Lit?;
            assert toks[1..][j - 1] == toks[j];
          }
        }
        Backtrack(toks[1..], ic, s, i, Span(s, i, cls))
  }

  /** Tries the rest of the pattern after a repetition of length `k`,
      then `k - 1`, ..., then 0. */
  function Backtrack(rest: seq<Tok>, ic: bool, s: string, i: nat, k: nat): (r: Option<nat>)
    requires i + k <= |s|
    ensures r.Some? ==> i <= r.value <= |s|
    ensures r.Some? && HasLit(rest) ==> i < r.value
    decreases |rest|, 1, k
  {
    match MatchAt(rest, ic, s, i + k)
    case Some(e) => Some(e)
    case None => if k == 0 then None else Backtrack(rest, ic, s, i, k - 1)
  }

  /** `re.sub(p, repl, s[i..])`: every non-overlapping leftmost match is
      replaced by `repl`, scanning on from the end of each match. */
  function SubFrom(p: Pattern, s: string, repl: string, i: nat): (r: string)
    requires i <= |s|
    ensures forall c :: c in r ==> c in s[i..] || c in repl
    decreases |s| - i
  {
    if i == |s| then ""
    else match MatchAt(p.Toks(), p.ignoreCase, s, i)
      case Some(e) =>
        var tail := SubFrom(p, s, repl, e);
        assert forall c :: c in s[e..] ==> c in s[i..] by {
          forall c | c in s[e..] ensures c in s[i..] {
            var j :| 0 <= j < |s[e..]| && s[e..][j] == c;
            assert s[i..][e - i + j] == c;
          }
        }
        repl + tail
      case None =>
        var tail := SubFrom(p, s, repl, i + 1);
        assert forall c :: c in s[i + 1..] ==> c in s[i..] by {
          assert s[i..] == [s[i]] + s[i + 1..];
        }
        assert s[i] in s[i..] by { assert s[i..][0] == s[i]; }
        [s[i]] + tail
  }

  /** Python's `re.sub(p, repl, s)`. */
  function Sub(p: Pattern, s: string, repl: string): (r: string)
    ensures forall c :: c in r ==> c in s || c in repl
  {
    assert s[0..] == s;
    SubFrom(p, s, repl, 0)
  }

  /** Several `re.sub` calls in a row, all with the same replacement. */
  function SubEach(pats: seq<Pattern>, s: string, repl: string): (r: string)
    ensures forall c :: c in r ==> c in s || c in repl
    decreases |pats|
  {
    if |pats| == 0 then s else SubEach(pats[1..], Sub(pats[0], s, repl), repl)
  }

  /** A pattern that can match nowhere leaves the text unchanged. */
  lemma {:induction false} SubFromNoMatch(p: Pattern, s: string, repl: string, i: nat)
    requires i <= |s|
    requires forall j :: i <= j < |s| ==> MatchAt(p.Toks(), p.ignoreCase, s, j).None?
    ensures SubFrom(p, s, repl, i) == s[i..]
    decreases |s| - i
  {
    if i < |s| {
      SubFromNoMatch(p, s, repl, i + 1);
      assert s[i..] == [s[i]] + s[i + 1..];
    }
  }

  /** `re.sub` with a pattern that matches nowhere in the text returns the
      text unchanged. */
  lemma SubNoMatch(p: Pattern, s: string, repl: string)
    requires forall j :: 0 <= j < |s| ==> MatchAt(p.Toks(), p.ignoreCase, s, j).None?
    ensures Sub(p, s, repl) == s
  {
    SubFromNoMatch(p, s, repl, 0);
    assert s[0..] == s;
  }
}

=== FILE: rows.dfy ===
/** Row classification and field parsing: a raw table row becomes a pickup
    or dropoff stop, or is refused (app.py:100-164). */
module Rows {
  import opened Wrappers
  import opened Strings
  import opened Normalize

  /** A table cell as extracted from the page; `None` is an absent cell. */
  type Cell = Option<string>

  type Row = seq<Cell>

  const ZeroWidthSpace: char := '\U{200B}'

  /** An absent cell becomes empty; a present one loses its zero-width
      spaces and surrounding whitespace (app.py:129). */
  function CleanCell(c: Cell): (r: string)
    ensures ZeroWidthSpace !in r
    ensures Trimmed(r)
    ensures c.None? ==> r == ""
    ensures c.Some? ==> forall ch :: ch in r ==> ch in c.value
    ensures c.Some? && ZeroWidthSpace !in c.value && Trimmed(c.value) ==> r == c.value
  {
    match c
    case None => ""
    case Some(v) =>
      assert ZeroWidthSpace !in v && Trimmed(v) ==> Strip(ReplaceAll(v, [ZeroWidthSpace], "")) == v by {
        if ZeroWidthSpace !in v && Trimmed(v) {
          ReplaceAbsent(v, ZeroWidthSpace, "");
          StripUnchanged(v);
        }
      }
      Strip(ReplaceAll(v, [ZeroWidthSpace], ""))
  }

  function CleanRow(row: Row): (cells: seq<string>)
    ensures |cells| == |row|
    ensures forall i :: 0 <= i < |row| ==> cells[i] == CleanCell(row[i])
  {
    seq(|row|, i requires 0 <= i < |row| => CleanCell(row[i]))
  }

  datatype Kind = PickupStop | DropoffStop

  /** P/D detection (app.py:132-145): a pickup when one of cells 4-6 is
      exactly `P`; otherwise a dropoff when cell 4 contains `D` anywhere. */
  function Classify(cells: seq<string>): (r: Option<Kind>)
    requires |cells| >= 6
    ensures r == Some(PickupStop) <==> exists i :: 4 <= i < 7 && i < |cells| && cells[i] == "P"
    ensures r == Some(DropoffStop) <==>
      (forall i :: 4 <= i < 7 && i < |cells| ==> cells[i] != "P") && 'D' in cells[4]
  {
    if cells[4] == "P" || cells[5] == "P" || (|cells| > 6 && cells[6] == "P") then Some(PickupStop)
    else if 'D' in cells[4] then Some(DropoffStop)
    else None
  }

  // ---------------------------------------------------------------------
  // Times

  /** Length of the `\d{1,2}:\d{2}` match anchored at `i` (0 when none). The
      greedy hour takes two digits when the rest then fits; with one digit
      the next character must be the colon. */
  function TimeLength(s: string, i: nat): nat {
    if i + 5 <= |s| && IsDigit(s[i]) && IsDigit(s[i + 1]) && s[i + 2] == ':'
       && IsDigit(s[i + 3]) && IsDigit(s[i + 4]) then 5
    else if i + 4 <= |s| && IsDigit(s[i]) && s[i + 1] == ':' && IsDigit(s[i + 2]) && IsDigit(s[i + 3]) then 4
    else 0
  }

  /** `H:MM` or `HH:MM` (digits only, not range-checked). */
  predicate IsClockText(t: string) {
    || (|t| == 4 && IsDigit(t[0]) && t[1] == ':' && IsDigit(t[2]) && IsDigit(t[3]))
    || (|t| == 5 && IsDigit(t[0]) && IsDigit(t[1]) && t[2] == ':' && IsDigit(t[3]) && IsDigit(t[4]))
  }

  /** Where the leftmost time match starts. */
  function FindTimeAt(s: string): (r: Option<nat>)
    ensures r.Some? ==> r.value < |s| && TimeLength(s, r.value) > 0
    ensures r.Some? ==> forall j :: 0 <= j < r.value ==> TimeLength(s, j) == 0
    ensures r.None? ==> forall j :: 0 <= j < |s| ==> TimeLength(s, j) == 0
  {
    var p := (j: nat) => TimeLength(s, j) > 0;
    var r := FirstWhere(|s|, 0, p);
    assert forall j :: 0 <= j < |s| && (r.None? || j < r.value) ==> TimeLength(s, j) == 0 by {
      forall j | 0 <= j < |s| && (r.None? || j < r.value) ensures TimeLength(s, j) == 0 {
        assert !p(j);
      }
    }
    r
  }

  /** The text of the leftmost time match (`re.search(...).group(1)`). */
  function TimeIn(s: string): (t: string)
    requires FindTimeAt(s).Some?
    ensures IsClockText(t)
    ensures OccursAt(s, t, FindTimeAt(s).value)
  {
    var i := FindTimeAt(s).value;
    s[i..i + TimeLength(s, i)]
  }

  function ClockHour(t: string): nat
    requires IsClockText(t)
  {
    if |t| == 4 then DigitValue(t[0]) else 10 * DigitValue(t[0]) + DigitValue(t[1])
  }

  function ClockMinute(t: string): nat
    requires IsClockText(t)
  {
    10 * DigitValue(t[|t| - 2]) + DigitValue(t[|t| - 1])
  }

  /** `datetime.strptime(t, '%H:%M')` as seconds after midnight, `None` where
      it raises `ValueError`. `%H` is `2[0-3]|[0-1]\d|\d` and `%M` is
      `[0-5]\d|\d`, tried in that order; the whole text must be consumed.
      When a two-digit hour alternative matches, the one-digit alternative
      could only succeed with a colon where a digit stands, so the first
      matching alternative decides. */
  function ParseClock(t: string): (r: Option<nat>)
    ensures IsClockText(t) ==> (r.Some? <==> ClockHour(t) <= 23 && ClockMinute(t) <= 59)
    ensures IsClockText(t) && r.Some? ==> r.value == 60 * (60 * ClockHour(t) + ClockMinute(t))
    ensures r.Some? ==> r.value < 24 * 3600
  {
    var hour: Option<(nat, nat)> :=
      if |t| >= 2 && t[0] == '2' && '0' <= t[1] <= '3' then Some((20 + DigitValue(t[1]), 2))
      else if |t| >= 2 && '0' <= t[0] <= '1' && IsDigit(t[1]) then Some((10 * DigitValue(t[0]) + DigitValue(t[1]), 2))
      else if |t| >= 1 && IsDigit(t[0]) then Some((DigitValue(t[0]), 1))
      else None;
    match hour
    case None => None
    case Some((h, n)) =>
      if n < |t| && t[n] == ':' then
        var minute: Option<(nat, nat)> :=
          if n + 3 <= |t| && '0' <= t[n + 1] <= '5' && IsDigit(t[n + 2]) then
            Some((10 * DigitValue(t[n + 1]) + DigitValue(t[n + 2]), 2))
          else if n + 2 <= |t| && IsDigit(t[n + 1]) then Some((DigitValue(t[n + 1]), 1))
          else None;
        match minute
        case Some((m, k)) => if n + 1 + k == |t| then Some(60 * (60 * h + m)) else None
        case None => None
      else None
  }

  // ---------------------------------------------------------------------
  // Name, customer ID and comments

  /** Five digits start at `i`: where `(\d{5,6})` can match. */
  predicate IdAt(s: string, i: nat) {
    i + 5 <= |s| && forall j :: i <= j < i + 5 ==> IsDigit(s[j])
  }

  /** Where the leftmost customer ID starts. */
  function FindId(s: string): (r: Option<nat>)
    ensures r.Some? ==> r.value < |s| && IdAt(s, r.value)
    ensures r.Some? ==> forall j :: 0 <= j < r.value ==> !IdAt(s, j)
    ensures r.None? ==> forall j :: 0 <= j < |s| ==> !IdAt(s, j)
  {
    var p := (j: nat) => IdAt(s, j);
    var r := FirstWhere(|s|, 0, p);
    assert forall j :: 0 <= j < |s| && (r.None? || j < r.value) ==> !IdAt(s, j) by {
      forall j | 0 <= j < |s| && (r.None? || j < r.value) ensures !IdAt(s, j) {
        assert !p(j);
      }
    }
    r
  }

  /** The greedy `\d{5,6}` takes a sixth digit when there is one. */
  function IdLength(s: string, i: nat): nat
    requires IdAt(s, i)
  {
    if i + 5 < |s| && IsDigit(s[i + 5]) then 6 else 5
  }

  /** Python's `s.split(t)[0]`: the text before the first occurrence of `t`. */
  function TextBefore(s: string, t: string): (r: string)
    requires |t| > 0
  {
    var p := (j: nat) => OccursAt(s, t, j);
    match FirstWhere(|s|, 0, p)
    case Some(j) => s[..j]
    case None => s
  }

  /** The name and ID cell with line breaks shown as ` / `, trimmed (app.py:101). */
  function IdentityText(cells: seq<string>): (r: string)
    requires |cells| >= 6
    ensures '\n' !in r
    ensures r == Strip(Join(Split(cells[5], '\n'), " / "))
    ensures '\n' !in cells[5] && Trimmed(cells[5]) ==> r == cells[5]
  {
    IdentityUntouched(cells[5]);
    OneLine(cells[5])
  }

  /** A cell's line breaks shown as ` / `, trimmed; an empty cell stays empty. */
  function OneLine(c: string): (r: string)
    ensures '\n' !in r
  {
    if c != "" then Strip(ReplaceAll(c, "\n", " / ")) else ""
  }

  /** The cell's lines joined by ` / ` and stripped; a one-line, trimmed
      cell comes through as it is. */
  lemma IdentityUntouched(c: string)
    ensures OneLine(c) == Strip(Join(Split(c, '\n'), " / "))
    ensures '\n' !in c && Trimmed(c) ==> OneLine(c) == c
  {
    JoinSplit(c, '\n', " / ");
    if c == "" {
      assert Split(c, '\n') == [""];
    }
    if '\n' !in c && Trimmed(c) {
      ReplaceAbsent(c, '\n', " / ");
      StripUnchanged(c);
    }
  }

  /** The non-blank comment cells, line breaks shown as ` / ` (app.py:102). */
  function CommentCells(cells: seq<string>): (r: seq<string>)
    ensures |r| <= |cells|
    decreases |cells|
  {
    if |cells| == 0 then [] else CommentOf(cells[0]) + CommentCells(cells[1..])
  }

  /** What one comment cell contributes: nothing when blank, else the cell
      with its line breaks shown as ` / `. */
  function CommentOf(cell: string): (r: seq<string>)
    ensures |r| <= 1
    ensures |r| == 1 <==> cell != "" && Strip(cell) != ""
    ensures |r| == 1 ==> '\n' !in r[0]
    ensures |r| == 1 ==> r[0] == Join(Split(cell, '\n'), " / ")
  {
    JoinSplit(cell, '\n', " / ");
    if cell != "" && Strip(cell) != "" then [ReplaceAll(cell, "\n", " / ")] else []
  }

  /** The comment cells of a row are kept one by one, in order: a cell is
      kept, its line breaks shown as ` / `, exactly when it is not blank. */
  lemma {:induction false} CommentCellsAppend(a: seq<string>, b: seq<string>)
    ensures CommentCells(a + b) == CommentCells(a) + CommentCells(b)
    ensures |a| == 1 ==> CommentCells(a) == CommentOf(a[0])
    decreases |a|
  {
    if |a| == 0 {
      assert a + b == b;
    } else {
      var ab := a + b;
      ConsSplit(a, b);
      CommentCellsAppend(a[1..], b);
      ConcatChain(CommentCells(ab), CommentCells(ab[1..]), CommentCells(a), CommentCells(a[1..]),
                  CommentCells(b), CommentOf(a[0]));
      if |a| == 1 {
        assert a[1..] == [] && CommentCells(a[1..]) == [];
      }
    }
  }

  datatype Identity = Identity(name: string, id: string, comments: string)

  /** `id` is what `re.search(r'(\d{5,6})', col)` finds: empty when `col` has
      no five consecutive digits, else the digits at the leftmost such place,
      six of them when a sixth follows. */
  predicate IsIdOf(col: string, id: string) {
    && (id == "" <==> forall j :: 0 <= j < |col| ==> !IdAt(col, j))
    && (id != "" ==>
          exists k :: 0 <= k < |col| && IdAt(col, k) && (forall j :: 0 <= j < k ==> !IdAt(col, j))
                      && OccursAt(col, id, k) && (if k + 5 < |col| && IsDigit(col[k + 5]) then |id| == 6 else |id| == 5))
  }

  /** `name` is a piece of `col` ending before the ID. */
  predicate NameBeforeIdIn(col: string, name: string, id: string) {
    id != "" ==> exists a, k :: 0 <= a && a + |name| <= k <= |col| && OccursAt(col, name, a) && OccursAt(col, id, k)
  }

  /** Where the name must end: at the leftmost ID match, or at the end of the cell. */
  function NameEnd(col: string): (k: nat)
    ensures k <= |col|
    ensures FindId(col).Some? ==> k == FindId(col).value
  {
    match FindId(col)
    case Some(k) => k
    case None => |col|
  }

  /** `name` sits in `col[..k]` at `a`, with only blanks before it and only
      `*`, `/` and blanks between its end and `k`. */
  predicate NameSpan(col: string, name: string, k: nat, a: nat) {
    && a + |name| <= k <= |col|
    && RangeIn(col, 0, a, Space)
    && OccursAt(col, name, a)
    && RangeIn(col, a + |name|, k, NameTail)
  }

  /** No trailing `*`, `/` or blank. */
  predicate EndsClean(name: string) {
    name == [] || !NameTail.Has(name[|name| - 1])
  }

  /** The customer ID: the leftmost `\d{5,6}` match, or empty. */
  function IdOf(col: string): (id: string)
    ensures IsIdOf(col, id)
    ensures id != "" ==> FindId(col).Some? && OccursAt(col, id, FindId(col).value)
  {
    match FindId(col)
    case None => ""
    case Some(k) => col[k..k + IdLength(col, k)]
  }

  /** The name: the text before the ID (or the whole cell), with a trailing
      run of `*`, `/` and blanks dropped. Together the two `ensures` about
      its place fix it: it starts at the first non-blank of the cell and
      stops where only `*`, `/` and blanks are left before the ID. */
  function NameOf(col: string, id: string): (name: string)
    requires id == IdOf(col)
    ensures EndsClean(name) && Trimmed(name)
    ensures exists a :: NameSpan(col, name, NameEnd(col), a)
    ensures NameBeforeIdIn(col, name, id)
  {
    var k := NameEnd(col);
    var before := if id != "" then Strip(TextBefore(col, id)) else col;
    var name := Strip(DropTrailing(before, NameTail));
    NameEndsClean(before, name);
    if id != "" then
      IdSplitsAtMatch(col);
      StripParts(col[..k]);
      InPrefix(col, k, before, StripStart(col[..k]));
      NameLocated(col, k, before, StripStart(col[..k]), name);
      assert OccursAt(col, id, k);
      name
    else
      assert col[0..|col|] == col;
      NameLocated(col, k, before, 0, name);
      name
  }

  /** `parse_name_id_comments` (app.py:100-121). */
  function ParseNameIdComments(cells: seq<string>): (r: Identity)
    requires |cells| >= 6
    ensures IsIdOf(IdentityText(cells), r.id)
    ensures NameBeforeIdIn(IdentityText(cells), r.name, r.id)
    ensures var col := IdentityText(cells); exists a :: NameSpan(col, r.name, NameEnd(col), a)
    ensures EndsClean(r.name) && Trimmed(r.name)
    ensures NoLineBreak(r.comments)
  {
    var col := IdentityText(cells);
    var id := IdOf(col);
    var name := NameOf(col, id);
    var comments := CleanCommentText(NotesAfter(col, name, id) + " " + Join(CommentCells(cells[6..]), " "));
    Identity(name, id, comments)
  }

  /** The rest of the identity cell after the name, the ID removed
      (`str.replace('', '')` leaves the text as it is). */
  function NotesAfter(col: string, name: string, id: string): (r: string)
    ensures Trimmed(r)
    ensures name == "" || |col| <= |name| ==> r == ""
    ensures |name| <= |col| ==> forall c :: c in r ==> c in col[|name|..]
    ensures name != "" && |col| > |name| && (id == "" || !Occurs(col[|name|..], id)) ==>
      r == Strip(col[|name|..])
  {
    assert name != "" && |col| > |name| && id != "" && !Occurs(col[|name|..], id) ==>
      ReplaceAll(col[|name|..], id, "") == col[|name|..] by {
      if name != "" && |col| > |name| && id != "" && !Occurs(col[|name|..], id) {
        ReplaceNowhere(col[|name|..], id, "");
      }
    }
    if name != "" && |col| > |name| then
      Strip(if id == "" then col[|name|..] else ReplaceAll(col[|name|..], id, ""))
    else ""
  }

  /** The ID found by the leftmost match also occurs nowhere earlier, so the
      text before its first occurrence is the text before the match. */
  lemma IdSplitsAtMatch(col: string)
    requires FindId(col).Some?
    ensures var k := FindId(col).value;
      TextBefore(col, col[k..k + IdLength(col, k)]) == col[..k]
  {
    var k := FindId(col).value;
    var id := col[k..k + IdLength(col, k)];
    var p := (j: nat) => OccursAt(col, id, j);
    assert p(k);
    forall j | 0 <= j < k ensures !p(j) {
      if OccursAt(col, id, j) {
        forall m | j <= m < j + 5 ensures IsDigit(col[m]) {
          assert col[m] == id[m - j] == col[k + (m - j)];
        }
        assert IdAt(col, j);
      }
    }
    var r := FirstWhere(|col|, 0, p);
    assert r == Some(k);
  }

  /** Trimming `before` (itself `col[..k]` trimmed, or all of it) and
      dropping a tail of `*`, `/` and blanks leave the name where
      `NameSpan` says. */
  lemma NameLocated(col: string, k: nat, before: string, b: nat, name: string)
    requires k <= |col| && OccursAt(col, before, b) && b + |before| <= k
    requires RangeIn(col, 0, b, Space) && RangeIn(col, b + |before|, k, Space)
    requires name == Strip(DropTrailing(before, NameTail))
    ensures exists a :: NameSpan(col, name, k, a)
  {
    var s3 := DropTrailing(before, NameTail);
    assert RangeIn(before, |s3|, |before|, NameTail);
    StripParts(s3);
    NameLayers(col, k, before, b, s3, name, StripStart(s3));
  }

  /** The index bookkeeping behind `NameLocated`, free of `Strip`. */
  lemma NameLayers(col: string, k: nat, s2: string, b: nat, s3: string, name: string, e: nat)
    requires k <= |col| && OccursAt(col, s2, b) && b + |s2| <= k
    requires RangeIn(col, 0, b, Space) && RangeIn(col, b + |s2|, k, Space)
    requires OccursAt(s2, s3, 0) && RangeIn(s2, |s3|, |s2|, NameTail)
    requires OccursAt(s3, name, e) && RangeIn(s3, 0, e, Space) && RangeIn(s3, e + |name|, |s3|, Space)
    ensures NameSpan(col, name, k, b + e)
  {
    OccursInOccurs(col, s2, b, s3, 0);
    OccursInOccurs(col, s3, b, name, e);
    forall m | 0 <= m < b + e ensures Space.Has(col[m]) {
      if m >= b {
        assert col[m] == s3[m - b];
      }
    }
    forall m | b + e + |name| <= m < k ensures NameTail.Has(col[m]) {
      if m < b + |s3| {
        assert col[m] == s3[m - b];
      } else if m < b + |s2| {
        assert col[m] == s2[m - b];
      }
    }
  }

  /** Facts about a piece of `col[..k]` carried over to `col`. */
  lemma InPrefix(col: string, k: nat, x: string, b: nat)
    requires k <= |col| && OccursAt(col[..k], x, b)
    requires RangeIn(col[..k], 0, b, Space) && RangeIn(col[..k], b + |x|, k, Space)
    ensures OccursAt(col, x, b) && b + |x| <= k
    ensures RangeIn(col, 0, b, Space) && RangeIn(col, b + |x|, k, Space)
  {
    assert OccursAt(col, col[..k], 0);
    OccursInOccurs(col, col[..k], 0, x, b);
  }

  /** The final trim keeps the name free of a trailing `*`, `/` or blank. */
  lemma NameEndsClean(before: string, name: string)
    requires name == Strip(DropTrailing(before, NameTail))
    ensures EndsClean(name)
  {
    var s := DropTrailing(before, NameTail);
    if |s| > 0 {
      StripKeepsLast(s);
    }
  }

  /** Stripping a text that ends in a non-blank keeps its last character. */
  lemma StripKeepsLast(s: string)
    requires EndsNonBlank(s)
    ensures |Strip(s)| > 0 && Strip(s)[|Strip(s)| - 1] == s[|s| - 1]
  {
    var a := DropLeading(s, Space);
    assert a[|a| - 1] == s[|s| - 1];
    KeepsLast(a, Space);
  }

  // ---------------------------------------------------------------------
  // Row parsing

  datatype Reject = TooFewCells | NoIndicator | NoTime

  /** What a row says once classified and parsed. */
  datatype Stop = Stop(kind: Kind, time: string, address: string, name: string, id: string, comments: string)

  /** The row is refused: too short, no `P`/`D` indicator, or no time in the
      second or first cell. */
  predicate Unusable(row: Row) {
    || |row| < 6
    || Classify(CleanRow(row)).None?
    || (FindTimeAt(CleanRow(row)[1]).None? && FindTimeAt(CleanRow(row)[0]).None?)
  }

  /** The refusals and the field parsing of `process_table_row`
      (app.py:125-164): fewer than six cells, no P/D indicator, or no time in
      the departure or arrival cell refuse the row. */
  function ParseRow(row: Row): (r: Result<Stop, Reject>)
    ensures r == Failure(TooFewCells) <==> |row| < 6
    ensures |row| >= 6 ==> (r == Failure(NoIndicator) <==> Classify(CleanRow(row)).None?)
    ensures r == Failure(NoTime) <==>
      && |row| >= 6 && Classify(CleanRow(row)).Some?
      && FindTimeAt(CleanRow(row)[1]).None? && FindTimeAt(CleanRow(row)[0]).None?
    ensures r.Success? ==>
      var cells := CleanRow(row);
      var ident := ParseNameIdComments(cells);
      && Some(r.value.kind) == Classify(cells)
      && IsClockText(r.value.time)
      && r.value.time == (if FindTimeAt(cells[1]).Some? then TimeIn(cells[1]) else TimeIn(cells[0]))
      && r.value.address == cells[3]
      && r.value.name == ident.name && r.value.id == ident.id && r.value.comments == ident.comments
  {
    if |row| < 6 then Failure(TooFewCells)
    else
      var cells := CleanRow(row);
      match Classify(cells)
      case None => Failure(NoIndicator)
      case Some(kind) =>
        var source := if FindTimeAt(cells[1]).Some? then cells[1] else cells[0];
        if FindTimeAt(source).None? then Failure(NoTime)
        else
          var ident := ParseNameIdComments(cells);
          Success(Stop(kind, TimeIn(source), cells[3], ident.name, ident.id, ident.comments))
  }
}

=== FILE: scenarios.dfy ===
/** Concrete cases of the behaviour the general contracts describe. */
module Scenarios {
  import opened Wrappers
  import opened Strings
  import opened Rows
  import opened Pairing

  /** The ID and name are checked together on each entry in queue order: an
      earlier entry with the same name wins over a later one with the same
      ID. */
  lemma MatchIsPerEntry()
    ensures var q := [Pickup("TTM0001", "09:00", "ANN", "11111", "", "PU Com:"),
                      Pickup("TTM0001", "09:10", "BOB", "22222", "", "PU Com:")];
      MatchIndex(q, "22222", "ANN") == Some(0)
  {
    var q := [Pickup("TTM0001", "09:00", "ANN", "11111", "", "PU Com:"),
              Pickup("TTM0001", "09:10", "BOB", "22222", "", "PU Com:")];
    assert IsMatch(q[0], "22222", "ANN");
  }

  /** With no ID or name match the head is taken. */
  lemma FallbackTakesHead()
    ensures var q := [Pickup("TTM0001", "09:00", "ANN", "11111", "", "PU Com:"),
                      Pickup("TTM0001", "09:10", "BOB", "22222", "", "PU Com:")];
      MatchIndex(q, "33333", "CAROL") == Some(0) && MatchIndex(q, "22222", "") == Some(1)
  {
    var q := [Pickup("TTM0001", "09:00", "ANN", "11111", "", "PU Com:"),
              Pickup("TTM0001", "09:10", "BOB", "22222", "", "PU Com:")];
    assert IsMatch(q[1], "22222", "");
    assert !IsMatch(q[0], "22222", "");
  }

  /** Five minutes of slack: a dropoff 300 s before the pickup passes, 360 s
      before does not, and an unparsable time skips the check. */
  lemma TemporalSlack()
    ensures !TooEarly("10:00", "09:55")
    ensures TooEarly("10:00", "9:54")
    ensures !TooEarly("24:00", "09:00")
    ensures !TooEarly("10:00", "10:60")
  {
    assert ParseClock("10:00") == Some(36000);
    assert ParseClock("09:55") == Some(35700);
    assert ParseClock("9:54") == Some(35640);
    assert ParseClock("24:00") == None;
    assert ParseClock("10:60") == None;
  }

  /** A seven-digit number yields its first six digits as the ID. */
  lemma SevenDigitId()
    ensures IdOf("J 1234567") == "123456"
  {
    var col := "J 1234567";
    assert col[1] == ' ';
    assert !IdAt(col, 0) && !IdAt(col, 1);
    assert IdAt(col, 2);
    assert FindId(col) == Some(2);
    assert col[2..8] == "123456";
  }

  /** The leftmost `\d{1,2}:\d{2}` match: a two-digit hour is taken whole. */
  lemma TimeTakesTwoDigitHour()
    ensures FindTimeAt("at 12:345").Some? && TimeIn("at 12:345") == "12:34"
  {
    var s := "at 12:345";
    assert TimeLength(s, 3) == 5;
    assert !IsDigit(s[2]);
  }

  /** A cell is a dropoff when it merely contains `D`, unless a `P` cell
      makes the row a pickup. */
  lemma ClassifyExamples()
    ensures Classify(["", "", "", "", "PD", ""]) == Some(DropoffStop)
    ensures Classify(["", "", "", "", "D", "", "P"]) == Some(PickupStop)
    ensures Classify(["", "", "", "", "p", "d"]) == None
  {
  }

  /** A dropoff too early for the pickup it claims by ID, behind another
      pickup, is deferred: the claimed pickup moves to the front of the
      queue, and an empty address cell inherits the stored address. */
  lemma DeferralMovesPickupToFront(first: Pickup, claimed: Pickup, e: Engine, stop: Stop, ctx: PageContext)
    requires e.queue == [first, claimed]
    requires stop.id != "" && claimed.id == stop.id && first.id != stop.id && first.name != stop.name
    requires stop.address == "" && e.last.address != ""
    requires TooEarly(claimed.time, stop.time)
    ensures var r := OnDropoff(e, stop, ctx);
      r.outcome == Deferred && r.engine.queue == [claimed, first] && r.engine.last.address == e.last.address
  {
    assert MatchIndex(e.queue, stop.id, stop.name) == Some(1) by {
      assert IsMatch(e.queue[1], stop.id, stop.name);
    }
    assert RemoveAt(e.queue, 1) == [first];
  }
}

=== FILE: strings.dfy ===
/** The handful of Python string operations the trip extractor relies on,
    written over `string` (a sequence of Unicode scalar values). */
module Strings {
  import opened Wrappers

  /** The characters Python's `str.isspace()` (and the regular-expression
      class `\s` on text patterns) accepts. The zero-width space U+200B is not
      among them, which is why the row cleaner removes it explicitly. */
  predicate IsSpace(c: char) {
    || ('\t' <= c <= '\r')
    || ('\U{1C}' <= c <= '\U{1F}')
    || c == ' ' || c == '\U{85}' || c == '\U{A0}' || c == '\U{1680}'
    || ('\U{2000}' <= c <= '\U{200A}')
    || c == '\U{2028}' || c == '\U{2029}' || c == '\U{202F}' || c == '\U{205F}' || c == '\U{3000}'
  }

  /** A decimal digit, as the regular-expression class `\d` is taken here. */
  predicate IsDigit(c: char) {
    '0' <= c <= '9'
  }

  /** The character classes that strip, span and pattern operations use. */
  datatype CharClass = Space | Digit | DigitOrDot | Slash | NameTail | SpaceOrColon {
    predicate Has(c: char) {
      match this
      case Space => IsSpace(c)
      case Digit => IsDigit(c)
      case DigitOrDot => IsDigit(c) || c == '.'
      case Slash => c == '/'
      case NameTail => c == '*' || c == '/' || IsSpace(c)
      case SpaceOrColon => c == ':' || IsSpace(c)
    }
  }

  /** Every character of `s` is in the class. */
  predicate AllIn(s: string, cls: CharClass) {
    forall i :: 0 <= i < |s| ==> cls.Has(s[i])
  }

  /** `i..j` is a range of `s` and every character in it is in the class. */
  predicate RangeIn(s: string, i: nat, j: nat, cls: CharClass) {
    i <= j <= |s| && forall m :: i <= m < j ==> cls.Has(s[m])
  }

  /** A string free of line breaks. */
  predicate NoLineBreak(s: string) {
    '\n' !in s && '\r' !in s
  }

  /** Line-freeness checked character by character. */
  lemma NoLineBreakByIndex(s: string)
    requires forall i :: 0 <= i < |s| ==> s[i] != '\n' && s[i] != '\r'
    ensures NoLineBreak(s)
  {
  }

  /** `t` occurs in `s` starting at index `i`. */
  predicate OccursAt(s: string, t: string, i: int) {
    0 <= i && i + |t| <= |s| && s[i..i + |t|] == t
  }

  /** Python's `s.startswith(t)`. */
  predicate StartsWith(s: string, t: string) {
    |t| <= |s| && s[..|t|] == t
  }

  /** Python's `t in s` for strings. */
  predicate Contains(s: string, t: string) {
    exists i | 0 <= i <= |s| - |t| :: OccursAt(s, t, i)
  }

  /** The leftmost index in `[i, n)` satisfying `p`, if there is one: the
      scanning order every `re.search` of the source uses. */
  function FirstWhere(n: nat, i: nat, p: nat -> bool): (r: Option<nat>)
    requires i <= n
    ensures r.Some? ==> i <= r.value < n && p(r.value)
    ensures r.Some? ==> forall j :: i <= j < r.value ==> !p(j)
    ensures r.None? ==> forall j :: i <= j < n ==> !p(j)
    decreases n - i
  {
    if i == n then None
    else if p(i) then Some(i)
    else FirstWhere(n, i + 1, p)
  }

  /** Length of the maximal run of `cls` characters starting at `i`. */
  function Span(s: string, i: nat, cls: CharClass): (k: nat)
    requires i <= |s|
    ensures i + k <= |s|
    ensures forall j :: i <= j < i + k ==> cls.Has(s[j])
    ensures i + k == |s| || !cls.Has(s[i + k])
    decreases |s| - i
  {
    if i < |s| && cls.Has(s[i]) then 1 + Span(s, i + 1, cls) else 0
  }

  /** Python's `s.lstrip(chars)`: drops the maximal prefix of `cls` characters. */
  function DropLeading(s: string, cls: CharClass): (r: string)
    ensures |r| <= |s| && r == s[|s| - |r|..]
    ensures forall i :: 0 <= i < |s| - |r| ==> cls.Has(s[i])
    ensures r == [] || !cls.Has(r[0])
    ensures forall c :: c in r ==> c in s
  {
    if |s| > 0 && cls.Has(s[0]) then
      var r := DropLeading(s[1..], cls);
      assert s[1..][|s| - 1 - |r|..] == s[|s| - |r|..];
      assert forall i :: 0 < i < |s| - |r| ==> s[i] == s[1..][i - 1];
      r
    else s
  }

  /** Python's `s.rstrip(chars)`: drops the maximal suffix of `cls` characters. */
  function DropTrailing(s: string, cls: CharClass): (r: string)
    ensures |r| <= |s| && r == s[..|r|]
    ensures forall i :: |r| <= i < |s| ==> cls.Has(s[i])
    ensures r == [] || !cls.Has(r[|r| - 1])
    ensures forall c :: c in r ==> c in s
  {
    if |s| > 0 && cls.Has(s[|s| - 1]) then DropTrailing(s[..|s| - 1], cls) else s
  }

  /** Nothing to drop when the first character is outside the class. */
  lemma KeepsFirst(s: string, cls: CharClass)
    requires |s| > 0 && !cls.Has(s[0])
    ensures DropLeading(s, cls) == s
  {
  }

  /** Nothing to drop when the last character is outside the class. */
  lemma KeepsLast(s: string, cls: CharClass)
    requires |s| > 0 && !cls.Has(s[|s| - 1])
    ensures DropTrailing(s, cls) == s
  {
  }

  /** A character outside the class survives the trailing drop. */
  lemma TrailingStopsAt(s: string, cls: CharClass, i: nat)
    requires i < |s| && !cls.Has(s[i])
    ensures |DropTrailing(s, cls)| > i
  {
  }

  /** Python's `s.strip(chars)`: both ends. */
  function Trim(s: string, cls: CharClass): (r: string)
    ensures forall c :: c in r ==> c in s
    ensures r == [] || (!cls.Has(r[0]) && !cls.Has(r[|r| - 1]))
  {
    DropTrailing(DropLeading(s, cls), cls)
  }

  /** Python's `s.strip()` with no argument. */
  function Strip(s: string): (r: string)
    ensures Trimmed(r)
    ensures forall c :: c in r ==> c in s
  {
    Trim(s, Space)
  }

  /** Non-empty, and the last character is not whitespace. */
  predicate EndsNonBlank(s: string) {
    |s| > 0 && !IsSpace(s[|s| - 1])
  }

  /** Neither end is whitespace. */
  predicate Trimmed(s: string) {
    s == [] || (!IsSpace(s[0]) && !IsSpace(s[|s| - 1]))
  }

  /** Python's `s.replace(pat, rep)`: every non-overlapping occurrence of the
      non-empty `pat`, found left to right, is replaced by `rep`. */
  function ReplaceAll(s: string, pat: string, rep: string): (r: string)
    requires |pat| > 0
    ensures forall c :: c in r ==> c in s || c in rep
    ensures |pat| == 1 && pat[0] !in rep ==> pat[0] !in r
    decreases |s|
  {
    if |s| < |pat| then s
    else if s[..|pat|] == pat then rep + ReplaceAll(s[|pat|..], pat, rep)
    else [s[0]] + ReplaceAll(s[1..], pat, rep)
  }

  /** Python's `sep.join(parts)`. */
  function Join(parts: seq<string>, sep: string): string
    decreases |parts|
  {
    if |parts| == 0 then ""
    else if |parts| == 1 then parts[0]
    else parts[0] + sep + Join(parts[1..], sep)
  }

  /** Python's `s.split(sep)` for a one-character separator. */
  function Split(s: string, sep: char): (r: seq<string>)
    ensures |r| >= 1
    ensures forall i :: 0 <= i < |r| ==> sep !in r[i]
    decreases |s|
  {
    if |s| == 0 then [""]
    else
      var rest := Split(s[1..], sep);
      if s[0] == sep then [""] + rest
      else [[s[0]] + rest[0]] + rest[1..]
  }

  /** Joining the pieces of a split with `t` is replacing the separator by `t`. */
  lemma {:induction false} JoinSplit(s: string, sep: char, t: string)
    ensures Join(Split(s, sep), t) == ReplaceAll(s, [sep], t)
    decreases |s|
  {
    if |s| > 0 {
      var rest := Split(s[1..], sep);
      JoinSplit(s[1..], sep, t);
      assert s[1..] == s[|[sep]|..];
      if s[0] != sep && |rest| > 1 {
        assert rest == [rest[0]] + rest[1..];
        assert Join(rest, t) == rest[0] + t + Join(rest[1..], t);
      }
    }
  }

  /** Replacing a character by itself changes nothing. */
  lemma {:induction false} ReplaceSelf(s: string, c: char)
    ensures ReplaceAll(s, [c], [c]) == s
    decreases |s|
  {
    if |s| > 0 {
      ReplaceSelf(s[1..], c);
      assert s == [s[0]] + s[1..];
    }
  }

  /** Replacing a character that does not occur changes nothing. */
  lemma {:induction false} ReplaceAbsent(s: string, c: char, rep: string)
    requires c !in s
    ensures ReplaceAll(s, [c], rep) == s
    decreases |s|
  {
    if |s| > 0 {
      assert s[0] in s;
      assert s[..1] != [c];
      assert c !in s[1..] by { assert forall x :: x in s[1..] ==> x in s; }
      ReplaceAbsent(s[1..], c, rep);
      assert s == [s[0]] + s[1..];
    }
  }

  /** The head and tail of a concatenation with a non-empty front. */
  lemma ConsSplit<T>(a: seq<T>, b: seq<T>)
    requires |a| > 0
    ensures (a + b)[0] == a[0] && (a + b)[1..] == a[1..] + b
  {
  }

  /** Regrouping `h + (f1 + s2)` as `(h + f1) + s2`, for an inductive step
      over a concatenation. */
  lemma ConcatChain<T>(w: seq<T>, t: seq<T>, f: seq<T>, f1: seq<T>, s2: seq<T>, h: seq<T>)
    requires w == h + t && t == f1 + s2 && f == h + f1
    ensures w == f + s2
  {
    assert h + (f1 + s2) == (h + f1) + s2;
  }

  /** Replacing one character by one character maps the string position by position. */
  lemma {:induction false} ReplaceChar(s: string, c: char, x: char)
    ensures |ReplaceAll(s, [c], [x])| == |s|
    ensures forall i :: 0 <= i < |s| ==> ReplaceAll(s, [c], [x])[i] == (if s[i] == c then x else s[i])
    decreases |s|
  {
    if |s| > 0 {
      ReplaceChar(s[1..], c, x);
      var t := ReplaceAll(s[1..], [c], [x]);
      assert s[..1] == [s[0]];
      assert ReplaceAll(s, [c], [x]) == [if s[0] == c then x else s[0]] + t;
      forall i | 0 < i < |s|
        ensures ReplaceAll(s, [c], [x])[i] == (if s[i] == c then x else s[i])
      {
        assert s[1..][i - 1] == s[i];
      }
    }
  }

  /** With `c` occurring once, replacing it puts `rep` in its place. */
  lemma {:induction false} ReplaceOnce(a: string, c: char, b: string, rep: string)
    requires c !in a && c !in b
    ensures ReplaceAll(a + [c] + b, [c], rep) == a + rep + b
    decreases |a|
  {
    var s := a + [c] + b;
    if |a| == 0 {
      assert s == [c] + b && s[..1] == [c] && s[1..] == b;
      ReplaceAbsent(b, c, rep);
    } else {
      assert s[..1] == [a[0]] && a[0] != c;
      assert s[1..] == a[1..] + [c] + b;
      ReplaceOnce(a[1..], c, b, rep);
      assert a == [a[0]] + a[1..];
    }
  }

  /** `t` occurs somewhere in `s`. */
  predicate Occurs(s: string, t: string) {
    exists j :: 0 <= j <= |s| && OccursAt(s, t, j)
  }

  /** Replacing a pattern that occurs nowhere changes nothing. */
  lemma {:induction false} ReplaceNowhere(s: string, pat: string, rep: string)
    requires |pat| > 0 && !Occurs(s, pat)
    ensures ReplaceAll(s, pat, rep) == s
    decreases |s|
  {
    if |s| >= |pat| {
      assert !OccursAt(s, pat, 0);
      assert !Occurs(s[1..], pat) by {
        forall j | 0 <= j <= |s[1..]| ensures !OccursAt(s[1..], pat, j) {
          if OccursAt(s[1..], pat, j) {
            assert s[1 + j..1 + j + |pat|] == s[1..][j..j + |pat|];
            assert OccursAt(s, pat, 1 + j);
          }
        }
      }
      ReplaceNowhere(s[1..], pat, rep);
      assert s == [s[0]] + s[1..];
    }
  }

  /** A piece of a piece of `s` is a piece of `s`. */
  lemma OccursInOccurs(s: string, x: string, i: nat, y: string, j: nat)
    requires OccursAt(s, x, i) && OccursAt(x, y, j)
    ensures OccursAt(s, y, i + j)
  {
    forall m | 0 <= m < |y| ensures s[i + j + m] == y[m] {
      assert y[m] == x[j + m] == s[i + j + m];
    }
    assert s[i + j..i + j + |y|] == y;
  }

  /** How many leading characters `Trim(s, cls)` removes. */
  function TrimStart(s: string, cls: CharClass): (a: nat)
    ensures a <= |s|
  {
    |s| - |DropLeading(s, cls)|
  }

  /** Trimming keeps a contiguous piece of the text with only `cls`
      characters around it. */
  lemma TrimParts(s: string, cls: CharClass)
    ensures OccursAt(s, Trim(s, cls), TrimStart(s, cls))
    ensures RangeIn(s, 0, TrimStart(s, cls), cls)
    ensures RangeIn(s, TrimStart(s, cls) + |Trim(s, cls)|, |s|, cls)
  {
    var l := DropLeading(s, cls);
    var r := DropTrailing(l, cls);
    assert Trim(s, cls) == r;
    CutParts(s, l, r, TrimStart(s, cls), cls);
  }

  /** `r`, a prefix of the suffix `l` of `s`, with `cls` cut on both sides. */
  lemma CutParts(s: string, l: string, r: string, a: nat, cls: CharClass)
    requires a <= |s| && l == s[a..] && |r| <= |l| && r == l[..|r|]
    requires forall m :: 0 <= m < a ==> cls.Has(s[m])
    requires forall m :: |r| <= m < |l| ==> cls.Has(l[m])
    ensures OccursAt(s, r, a)
    ensures RangeIn(s, 0, a, cls) && RangeIn(s, a + |r|, |s|, cls)
  {
    forall m | a + |r| <= m < |s| ensures cls.Has(s[m]) {
      assert s[m] == l[m - a];
    }
  }

  /** How many leading blanks `strip()` removes. */
  function StripStart(s: string): (a: nat)
    ensures a <= |s|
  {
    TrimStart(s, Space)
  }

  /** Stripping keeps a contiguous piece of the text with only blanks
      around it. */
  lemma StripParts(s: string)
    ensures OccursAt(s, Strip(s), StripStart(s))
    ensures RangeIn(s, 0, StripStart(s), Space)
    ensures RangeIn(s, StripStart(s) + |Strip(s)|, |s|, Space)
  {
    TrimParts(s, Space);
  }

  /** Splitting and re-joining with the same separator restores the string. */
  lemma SplitRoundTrip(s: string, sep: char)
    ensures Join(Split(s, sep), [sep]) == s
  {
    JoinSplit(s, sep, [sep]);
    ReplaceSelf(s, sep);
  }

  /** Splitting `a + sep + b`, with no separator in `a`, yields `a` first and
      the pieces of `b` after it. */
  lemma {:induction false} SplitAtFirst(a: string, sep: char, b: string)
    requires sep !in a
    ensures Split(a + [sep] + b, sep) == [a] + Split(b, sep)
    decreases |a|
  {
    if |a| == 0 {
      assert a + [sep] + b == [sep] + b;
      assert ([sep] + b)[1..] == b;
    } else {
      SplitAtFirst(a[1..], sep, b);
      assert (a + [sep] + b)[1..] == a[1..] + [sep] + b;
      assert [a[0]] + a[1..] == a;
    }
  }

  /** A string with no separator splits into itself alone. */
  lemma {:induction false} SplitNone(s: string, sep: char)
    requires sep !in s
    ensures Split(s, sep) == [s]
    decreases |s|
  {
    if |s| > 0 {
      SplitNone(s[1..], sep);
      assert [s[0]] + s[1..] == s;
    }
  }

  /** The value of one decimal digit character. */
  function DigitValue(c: char): nat
    requires IsDigit(c)
  {
    c as int - '0' as int
  }

  /** The number a run of decimal digits denotes, read most significant first. */
  function DecimalValue(s: string): nat
    requires AllIn(s, Digit)
    decreases |s|
  {
    if |s| == 0 then 0
    else 10 * DecimalValue(s[..|s| - 1]) + DigitValue(s[|s| - 1])
  }

  /** Python's `str(n)` for a natural number: decimal digits, no leading zero. */
  function NatToString(n: nat): (r: string)
    ensures |r| > 0 && AllIn(r, Digit)
    ensures DecimalValue(r) == n
    ensures r[0] == '0' ==> r == "0"
    decreases n
  {
    var d := ('0' as int + n % 10) as char;
    if n < 10 then [d]
    else
      var h := NatToString(n / 10);
      assert (h + [d])[..|h|] == h;
      h + [d]
  }
}

=== FILE: wrappers.dfy ===
/** Failure-compatible result types shared by the run-sheet model. */
module Wrappers {

  /** A value that may be absent (Python's `None`). */
  datatype Option<+T> = None | Some(value: T)

  /** The outcome of a step that can refuse its input, with the reason. */
  datatype Result<+R, +E> = Success(value: R) | Failure(error: E)
}
